=== FILE: README.md ===
# Parking workload: parking selection and occupancy estimate, in Dafny

This project models the decision logic of the two Python services of the
parking-workload repository and proves properties of it.

- **parser/main.py** is the "Parking Finder Service". Given a `"lat, lon"` query it asks the 2GIS catalogue for the parking places around that point. It turns each loosely typed catalogue item into a parking record and drops the items that fail the admission filter (car purpose, paid, public access, coordinates present). It answers with the nearest record. The model covers:
  - reading settings from the environment;
  - parsing the coordinate text;
  - the fallback chains that pick coordinates, the tariff comment, the price text and the space counts out of arbitrary JSON;
  - the recursive price formatter;
  - purpose normalisation;
  - the distance-bracket hourly tariff;
  - the filter;
  - the nearest choice, the optional comment refresh, and the 404/422/502/500 outcomes of the endpoint.
- **EPO/main.py** is the occupancy estimator. The model covers:
  - the five-level classification of a probability;
  - the six time-of-day bands;
  - the corrections and clamp applied to the weighted combination of factors, plus the final rounding;
  - the validation flow of `/api/parking/occupancy`: which inputs give an estimate, a 400, or a 500.

Python's semantics are written out where the code relies on them:
- truthiness, and `or` returning one of its operands;
- `dict.get` returning `None`;
- `str()` of JSON values, including `repr` inside lists and dicts;
- `int()` and `float()` of strings (whitespace, sign, digits, decimal point, exponent), and of other values (`TypeError` versus `ValueError`);
- `strip`, `lower` (ASCII and basic Cyrillic), `split(",")`, `join`, substring `in`;
- `round` as exact round-half-even.

The files:

| file | module | contents |
|---|---|---|
| prelude.dfy | `Prelude` | `Option`, the Python exceptions that matter, the raise-or-value outcome `Py`, the first-match index `FirstTrue` |
| text.dfy | `PyText` | `strip`, `lower`, `split`, `join`, substring search |
| numbers.dfy | `PyNum` | `str(int)`, `int(str)`, `float(str)`, round-half-even |
| json.dfy | `Json` | the JSON value, `get`, truthiness, `or`, `str`, `int()`/`float()` of values |
| config.dfy | `Config` | `_get_env_int`, `_get_env_bool`, `_parse_coordinates_string` |
| extract.dfy | `Extract` | `_extract_coordinates`, `_format_price`, `_extract_parking_comment`, `_extract_price`, `_extract_spaces`, `_normalize_purpose_values` |
| tariff.dfy | `Tariff` | `DISTANCE_PRICE_BRACKETS`, `_estimate_price_by_distance` |
| nearest.dfy | `Nearest` | `_build_parking_response`, `get_nearest_parking` |
| occupancy.dfy | `Occupancy` | `get_occupancy_level`, `get_time_context`, steps 7–8 of `estimate_parking_occupancy` |
| occupancy_api.dfy | `OccupancyApi` | `parking_occupancy` |

## Model

| member | source | states |
|---|---|---|
| Config.EnvInt | parser/main.py:26-33 | An unset or empty value gives the default. Any other value is accepted exactly when the decimal reading of `int()` (PyNum.ParseInt) accepts it, and the setting is then that integer. Otherwise it is the error. |
| Config.EnvIntRoundTrip | parser/main.py:26-33 | The decimal text of any integer is read back as that integer, whatever the default (in Python, for texts of at most 4300 digits). |
| Config.EnvBool | parser/main.py:36-47 | Unset or empty gives the default. Otherwise the result is true exactly when the stripped, lower-cased text is one of the six true spellings. It is false exactly when the text is one of the six false spellings, and an error exactly when it is neither. |
| Config.EnvBoolBlankRejected | parser/main.py:37-47 | A value of only whitespace is an error, not the default: the emptiness test comes before stripping. |
| Config.EnvBoolPadded | parser/main.py:40-42 | Case and surrounding whitespace are ignored: `YES` with any blank padding reads as true. |
| Config.ParseCoordinates | parser/main.py:50-66 | Fewer or more than two comma-separated parts is the shape error. With two parts the outcome is that of checking the parts. Any success is within latitude [-90, 90] and longitude [-180, 180]. |
| Config.ParseParts | parser/main.py:51-66 | The shape error happens exactly when a part is blank. The number error happens exactly when both parts are non-blank and `float()` rejects one of them. Success happens exactly when both parse and are in range, and then gives the parsed values. |
| Config.ParseCoordinatesRoundTrip | parser/main.py:50-66 | For any comma-free spellings that `float()` reads as in-range values, the text `x + ", " + y` parses back to those values. |
| Config.IntegerCoordinatesRoundTrip | parser/main.py:50-66 | Integer degrees in range, written as `"lat, lon"`, parse back exactly. |
| Config.LeadingSpaceParse | parser/main.py:51-59 | The space after the comma does not change what `float()` reads. |
| PyNum.ParseIntRoundTrip | parser/main.py:26-31 | The decimal reading inverts the decimal text: `int(str(i)) == i` for every integer whose text has at most 4300 digits, which is where Python performs these conversions. |
| PyNum.ParseFloatExtendsParseInt | parser/main.py:57-59 | `float()` accepts every text `int()` accepts, with the same value. |
| PyText.StripIdempotent | parser/main.py:40 | Stripping twice is stripping once. |
| PyText.StripAbsorbsPadding | parser/main.py:40 | Blank text added on either side never changes the result of `strip`. |
| Json.Or | parser/main.py:206-207 | `a or b` is truthy exactly when one operand is, and is always one of the two operands. |
| Json.ToInt | parser/main.py:315-331 | `int(v)` raises `ValueError` exactly for a text it cannot read. Every other failure is a `TypeError`, never an `AttributeError`. For a text, it succeeds exactly when PyNum.ParseInt reads it. |
| Json.StrOfInt | parser/main.py:269 | `str` of an integer is its decimal text, and the decimal reading gives it back (in Python, up to 4300 digits). |
| Extract.FirstPoint | parser/main.py:203-213 | There is no point exactly when every candidate is falsy or a dict without a usable point. An `AttributeError` comes only from a truthy non-dict candidate with only skipped ones before it. A point is the one of the first usable dict candidate. |
| Extract.ZeroLatitudeSkipped | parser/main.py:206-213 | A `lat` of 0 with no `latitude` is skipped by `or`, so such an item has no point at all. |
| Extract.ZeroLatitudeKept | parser/main.py:206-210 | A latitude of 0 under both keys survives, because `or` yields its last operand. |
| Extract.UsablePoint | parser/main.py:203-210 | A usable `point` decides the coordinates. |
| Extract.TextPointRaises | parser/main.py:203-206 | A non-empty text as `point` makes the extraction raise `AttributeError`. |
| Extract.FormatPrice | parser/main.py:228-252 | None gives nothing. A text gives its stripped form, or nothing exactly when it is blank. Numbers and booleans give `"<str(v)> ₽"`. A list result is never empty, and the empty list gives nothing. Only a dict can give the empty text. |
| Extract.FormatListAppend | parser/main.py:248-251 | The text of a concatenated list is the two halves' texts joined by `"; "`, or whichever half has one. |
| Extract.FormatSingleton | parser/main.py:248-251 | A one-element list formats like its element, unless that text is absent or empty. |
| Extract.FormatDictAmount | parser/main.py:235-244 | A dict holding only a non-zero `value` formats like the bare number, with the default currency `₽`. |
| Extract.FormatZeroAmount | parser/main.py:236-244 | A 0 under `value` is skipped by the `or` chain, so nothing is formatted. A 0 under `cost`, the chain's last operand, gives `"0 ₽"`. |
| Extract.AmountOnly | parser/main.py:236-244 | A dict with one amount key gives `"<amount> ₽"`. |
| Extract.FormatDictCurrencyUnit | parser/main.py:235-244 | Any dict whose `value` is a non-zero integer, with a non-empty stripped `currency` and a non-empty `unit`, formats as `"<amount> <currency> / <unit>"`, whatever other keys it holds. |
| Extract.FormatDictNested | parser/main.py:235-247 | Any dict with falsy `value` and `amount` and no `cost`, whose `items or tariffs` is truthy, formats like that nested value, whatever other keys it holds. |
| Extract.NonBlankText | parser/main.py:271-281 | A comment is used exactly when it is a non-blank string, and then stripped and non-empty. |
| Extract.CommentCandidates | parser/main.py:256-265 | For a dict `parking`: that dict first, then exactly the dict entries of its `items` list. For a list `parking`: exactly its dict entries. Otherwise no candidate. |
| Extract.DictsAppend | parser/main.py:262-265 | Keeping the dict entries preserves their order: the dicts of a concatenation are those of the first part, then those of the second. |
| Extract.FirstEligible | parser/main.py:268-277 | The position found holds an eligible entry, and no earlier entry is eligible. |
| Extract.FirstComment | parser/main.py:268-277 | No comment exactly when no entry is eligible. Otherwise it is the comment of the first eligible entry. |
| Extract.FirstCommentIs | parser/main.py:268-277 | An eligible entry with none eligible before it supplies the comment. |
| Extract.ExtractParkingComment | parser/main.py:255-283 | A returned comment is non-empty and stripped. None exactly when no candidate has a usable comment and the item-level `parking_comment` is unusable. |
| Extract.TargetCommentWins | parser/main.py:267-272 | The first entry whose id matches the target (as text) wins over earlier entries with other ids. |
| Extract.AnyCommentWhenNoTargetMatch | parser/main.py:274-277 | When no entry with the target id has a comment, or there is no target, the first entry with a usable comment supplies it. |
| Extract.GenericCommentLast | parser/main.py:274-283 | Without usable entries, the item's own `parking_comment` is the answer. |
| Extract.FirstFormatted | parser/main.py:292-300 | Nothing exactly when no source formats to a non-empty text. Otherwise the result is the text of the first source that does. |
| Extract.FirstFormattedIs | parser/main.py:292-300 | A source that formats, with none formatting before it, supplies the text. |
| Extract.PriceAfterComment | parser/main.py:291-303 | Without a comment, the text is that of the first source that formats. If none does, it is the paid-without-tariff text for a truthy `is_paid` and "free" otherwise. It is never empty. |
| Extract.ExtractPriceAsWritten | parser/main.py:286-303 | The code as written raises exactly when there is no comment and `parking` is a truthy non-dict. |
| Extract.ExtractPrice | parser/main.py:286-303 | Corrected reading: the result is always truthy. A truthy fallback comment is returned as given, and otherwise the found comment when there is one. Without a comment, the result is the after-comment text read from `parking` when it is a dict, and from `{}` otherwise. |
| Extract.PriceFromSource | parser/main.py:291-300 | Without a comment, the price is the text of the first of `price`, `parking.price`, `parking.tariffs`, `parking.payment` that formats to something non-empty. |
| Extract.PriceAgreesWhenNoRaise | parser/main.py:286-303 | Wherever the code as written does not raise, the corrected reading gives the same value. |
| Extract.PriceDefault | parser/main.py:301-303 | With no comment and no source that formats, the text is the paid-without-tariff text for a truthy `is_paid`, and "free" otherwise, whatever the shape of `parking`. |
| Extract.ParkingListCounterexample | parser/main.py:286-303 | A paid item whose `parking` is a list of entries without comments makes the code as written raise. The corrected reading answers with the paid-without-tariff text. |
| Extract.CapacityCount | parser/main.py:323-331 | A dict capacity is read through its `total`. Any other capacity is read through `int()`, and a failure gives None. |
| Extract.ExtractSpaces | parser/main.py:306-332 | With a dict `parking.spaces.common`, the result is its parsed `(total, free)`. Otherwise it is `(capacity, None)`. |
| Extract.CapacityShapes | parser/main.py:323-331 | A capacity given as decimal text, as `{"total": n}` or as a whole float reads as n. |
| Extract.NormalizePurpose | parser/main.py:396-401 | None gives no purposes. Otherwise a word is among the purposes exactly when some element (of a list) or comma-separated part (of anything else) is non-blank and strips and lower-cases to it. Every purpose is non-empty, stripped and lower case. |
| Extract.CleanWordsMembers | parser/main.py:399-401 | A word is kept exactly when some non-blank text cleans to it. |
| Extract.CleanWordsFixed | parser/main.py:400-401 | Words that are already clean pass through unchanged. |
| Extract.NormalizeIdempotent | parser/main.py:396-401 | Normalising the normalised list again changes nothing. |
| Extract.NormalizeTextAsList | parser/main.py:399-401 | A comma-separated text normalises like the list of its parts. |
| Tariff.EstimatePriceByDistance | parser/main.py:340-354 | The rate is one of 800, 400, 250, 150, 100 or 70. It is 70 beyond 20 km and 800 within 0.3 km. |
| Tariff.PriceInIsFirstCover | parser/main.py:350-353 | The rate is the price of the first bracket whose threshold is at least the distance. |
| Tariff.PriceInBeyondAll | parser/main.py:350-354 | Beyond every threshold the fallback rate applies. |
| Tariff.PriceInMonotone | parser/main.py:350-354 | Over any table with rising thresholds and falling prices, the rate never grows with distance. |
| Tariff.EstimateMonotone | parser/main.py:340-354 | A farther parking never gets a higher hourly rate. |
| Tariff.EstimateMatchesZones | parser/main.py:340-354 | Walking the bracket table gives exactly the six zone rates written out one by one. |
| Nearest.AnyIn | parser/main.py:430-432 | `any(w in words for w in ps)` holds exactly when some word of the list is in the set. |
| Nearest.PurposeCheck | parser/main.py:428-435 | The purpose checks pass exactly when the list is non-empty, has no excluded purpose and has an allowed one. |
| Nearest.AnyKeyword | parser/main.py:440-442 | The access test passes exactly when some keyword occurs in the text. |
| Nearest.Filter | parser/main.py:428-442 | The three checks pass exactly when the purpose, paid and public-access conditions all hold. |
| Nearest.Assemble | parser/main.py:449-492 | The record carries the request distance, the item's id and its coordinates, and a truthy name. With automatic pricing, the comment is cleared and the rate is the distance-bracket rate from the centre. Without it, there is no rate and the comment is the extracted price text. The capacity equals the total spaces whenever those are known. |
| Nearest.BuildParking | parser/main.py:421-492 | The build raises `AttributeError` exactly in three cases: a non-dict item; an item that passes the filter and whose coordinate search raises; or, under the code as written, an item with coordinates, no comment and a truthy non-dict `parking`. It yields a record exactly for an admitted item, and that record is assembled at the item's coordinates. As written, the record's comment is the value `_extract_price` returns. |
| Nearest.BuildAgrees | parser/main.py:456 | Wherever the code as written builds without raising, the corrected price reading builds the same. The corrected reading raises only where the code as written does. |
| Nearest.Enrich | parser/main.py:536-547 | Building succeeds exactly when no item raises, and collects at most one record per item. |
| Nearest.EnrichEmpty | parser/main.py:536-555 | No record is collected exactly when no item is admitted. |
| Nearest.EnrichSound | parser/main.py:536-547 | Every collected record is the record of an admitted item. |
| Nearest.EnrichAppend | parser/main.py:536-547 | Building over two runs of items collects the records of the first run followed by those of the second. |
| Nearest.EnrichAgrees | parser/main.py:536-547 | Wherever the service as written collects its records without raising, the corrected reading collects the same records. |
| Nearest.FirstNearestUnique | parser/main.py:557-558 | The element a stable sort by distance puts first is unique. |
| Nearest.PickNearest | parser/main.py:557-558 | The chosen record is no farther than any other, and strictly nearer than every earlier one, as a stable sort puts it first. |
| Nearest.FetchComment | parser/main.py:404-418 | The by-id lookup raises exactly for a truthy non-dict answer and gives nothing for a failed request or a falsy answer. For a dict answer it gives that item's comment for the id, found as `_extract_parking_comment` finds it; such a comment is stripped and non-empty. |
| Nearest.Refresh | parser/main.py:560-563 | Only the tariff comment can change, and only for a truthy id with prices not estimated. In that case a comment the lookup finds replaces the tariff comment, and when it finds none the record is unchanged. |
| Nearest.Answer | parser/main.py:536-566 | 500 exactly when building (including the price step, under the code as written) or refreshing raises. 404 exactly when no item is admitted. An error reply is one of those two. When some record is built and refreshing the first nearest one does not raise, the reply is that refreshed record, with the upstream total or else the number of items. |
| Nearest.GetNearestParking | parser/main.py:514-566 | 422 with the parser's message for bad coordinates, 502 when the search fails, and otherwise the answer for the items found around the parsed point. With `AsWritten` this is the service's behaviour. |
| Occupancy.OccupancyLevel | EPO/main.py:51-64 | The level's interval `[k/5, (k+1)/5)` holds the probability, with the outer levels unbounded. Each threshold belongs to the level above it. |
| Occupancy.LevelIsInterval | EPO/main.py:55-64 | Conversely, a probability in a level's interval is classified as that level. |
| Occupancy.LevelMonotone | EPO/main.py:51-64 | A larger probability never gets a lower level. |
| Occupancy.LabelsDistinct | EPO/main.py:55-64 | The five labels are pairwise distinct. |
| Occupancy.TimeContext | EPO/main.py:142-157 | Every clock hour falls in the band it returns. Any hour outside [0, 22) gets the late-evening band. |
| Occupancy.BandsPartitionDay | EPO/main.py:146-157 | Each clock hour lies in exactly one band. |
| Occupancy.Adjust | EPO/main.py:39-47 | The result lies in [0.05, 0.95]. Above 500 roubles it is at most `max(0.05, 0.3·(1 − cost/2000))`. Free parking within 1 km is at least `0.9 − 0.2·distance`. With no correction applying, an in-bounds value is unchanged. |
| Occupancy.AdjustMonotone | EPO/main.py:39-47 | A higher combined value never lowers the adjusted estimate. |
| Occupancy.Estimate | EPO/main.py:39-49 | The rounded estimate stays in [0.05, 0.95]. |
| Occupancy.PercentageBounds | EPO/main.py:115-120 | The percentage shown stays in [5, 95]. |
| Occupancy.EstimateLevelOfExpensive | EPO/main.py:43-64 | Parking at 1400 roubles or more is always classified "очень низкая". |
| PyNum.RoundToWithin | EPO/main.py:47-49 | Rounding to a grid keeps a value within any bounds that lie on the grid. |
| OccupancyApi.Fields | EPO/main.py:72-84 | Reading the four fields fails, with `AttributeError`, exactly for a POST body that is not an object. |
| OccupancyApi.Convert | EPO/main.py:74-83 | The conversions succeed exactly when all three succeed. Otherwise the first failing one's exception is raised. |
| OccupancyApi.ResolveHour | EPO/main.py:86-100 | An absent hour is the current one. The integer message is given exactly for a `ValueError`, and the range message exactly for a readable hour outside 0..23. Any other exception is a `TypeError` left to the outer handler. |
| OccupancyApi.Caught | EPO/main.py:133-140 | A `ValueError` is the 400; anything else is a 500. |
| OccupancyApi.CheckedParams | EPO/main.py:72-100 | The parameters and hour are available exactly when reading succeeds and the hour resolves, and then they are the values read, with an hour in 0..23. |
| OccupancyApi.Respond | EPO/main.py:108-131 | The "must be positive" 400 is given exactly when a sign check fails, and the 500 exactly when the combination overflows. The estimate echoes the parsed cost, distance, spots and hour. Its probability is `Estimate` of the combined value, its percentage is that probability rounded to one decimal place, and its level and band follow. |
| OccupancyApi.HandleOccupancy | EPO/main.py:66-140 | An estimate has an hour in 0..23, non-negative cost and distance, at least one spot, a probability in [0.05, 0.95], its level and its band. It is given only when the parameters are read and the hour resolves, and it is then what Respond gives for those values. The overflow 500 arises exactly there too. The missing-parameters message is never given, and a failure to read the parameters goes to the outer handler. |
| OccupancyApi.HandleOccupancyChecked | EPO/main.py:102-106 | Corrected reading: the missing-parameters 400 is given exactly when a field is absent. In every other case the answer is that of the endpoint as written. |
| OccupancyApi.MissingCostIsReported | EPO/main.py:102-106 | With the corrected order, a GET without a cost gets the missing-parameters 400. |
| OccupancyApi.MissingCostIsServerError | EPO/main.py:74-140 | As written, a GET without a cost is a 500 (`TypeError`), not the missing-parameters 400. |
| OccupancyApi.TextCostIsBadRequest | EPO/main.py:74-136 | A cost that `float()` cannot read is the 400 for invalid types. |
| OccupancyApi.HourCheckedBeforeSigns | EPO/main.py:86-112 | A rejected hour is reported even when the other values are negative. |
| OccupancyApi.SignsDecide | EPO/main.py:108-131 | With readable parameters and a valid hour, the "must be positive" 400 is given exactly when a sign check fails. |
| OccupancyApi.NonObjectBodyIsServerError | EPO/main.py:80-140 | A POST body that is not an object is a 500 (`AttributeError`). |
| OccupancyApi.ListHourIsServerError | EPO/main.py:86-97 | A list as the hour is a `TypeError`, which the inner handler does not catch: the answer is a 500, not the hour's 400. |

## Left out

- `_haversine_distance` is a function-typed parameter `Distance`, because it is floating-point trigonometry.
- Steps 1–6 of `estimate_parking_occupancy` are a parameter `Combine`, which returns None when `math.exp` overflows. They are exponentials and a logarithm of floats.
- Floating point is exact `real`. `round` is exact round-half-even, not the float rounding of a binary value. `f"{lat:.6f}"` is not produced: the record holds the coordinates as numbers. `str()` of a float is the text carried with the value, not computed.
- `float()` of strings covers finite decimal spellings. `inf`, `nan`, digit-group underscores and non-ASCII digits are not read. `lower()` covers ASCII and the basic Cyrillic block only. The `repr` of non-printable characters is not escaped.
- The catalogue requests and their failures are inputs to the model, because they are network calls:
  - `search_parking_near_coords` (including how it derives its total);
  - `get_parking_by_id`;
  - `requests` exceptions.
- The search radius (`radius or settings.default_radius`) and the result limit only shape the request. They are not modelled.
- `get_parking_by_item_id`, `_get_env_coordinates`, `get_settings` with its `lru_cache`, pydantic validation of the response models, logging, the health endpoint and start.go are not part of this model: they are plumbing around the logic modelled here.
- `datetime.now().hour` is a parameter, required to be in 0..23.
- Flask's `get_json()` failing on a malformed body is not modelled: the body is given as an already decoded JSON value.
- Nearest.GetNearestParking: the value of `total_found` when the search reports no total is `len(items)` as in the code; how the search itself fills its total is not modelled.
- Json.ToFloat: Python integers larger than a float can hold are not turned into `OverflowError` by `float()`.
- PyNum.ParseInt: `int()` of a string reads an optional sign and ASCII digits with surrounding whitespace. Python also accepts digit-group underscores (`"1_000"`) and non-ASCII decimal digits; these are read here as `ValueError`, to keep the digit alphabet small. Python (3.11 and later, 3.10.7+, 3.9.14+ and 3.8.14+) also refuses to convert more than 4300 decimal digits, a limit `PYTHONINTMAXSTRDIGITS` can change: `int()` of such a text and `str()` of such an integer raise `ValueError`. The model has no digit limit.
- Config.EnvInt: agrees with `int()` only on the spellings PyNum.ParseInt reads. A setting written with underscores or non-ASCII digits is an error here, where Python would accept it. A setting of more than 4300 digits is read here, where Python raises `RuntimeError`.
- Json.ToInt: for a string, agrees with `int()` only on the spellings PyNum.ParseInt reads. The same underscore and non-ASCII-digit gap applies, and a text of more than 4300 digits is read here where Python raises `ValueError`, so Extract.CapacityCount gives a count where the source gives None.
- PyNum.ParseIntRoundTrip: holds of the model's decimal reading for every integer; in Python only up to the 4300-digit conversion limit.
- Config.EnvIntRoundTrip: likewise holds for every integer here; in Python only up to the 4300-digit conversion limit.
- Json.StrOfInt: `str()` gives the decimal text of every integer here; in Python an integer of more than 4300 digits makes `str()` raise `ValueError`.

## Findings

| source | as written | input that shows it | evidently intended | confidence | as-written member | corrected member |
|---|---|---|---|---|---|---|
| parser/main.py:291-296 | `parking_info = item.get("parking") or {}` is then used as a dict, so a `parking` list (a shape `_extract_parking_comment` handles explicitly) raises `AttributeError` once no comment is found. The whole query then fails with a 500. | `{"is_paid": true, "parking": [{"id": "1"}]}` with no comment anywhere | A non-dict `parking` is read as `{}`, as `_extract_spaces` does, giving "Платная (тариф не указан)" | high; not executed | Extract.ExtractPriceAsWritten, Extract.ParkingListCounterexample, Nearest.BuildParking | Extract.ExtractPrice, Nearest.EnrichAgrees |
| EPO/main.py:74-106 | `float(request.args.get('cost'))` runs before the `cost is None` test. A missing parameter raises `TypeError`, which becomes a 500, and the "Missing required parameters" 400 can never be given. | `GET /api/parking/occupancy?distance=1&spots=3` | A missing cost, distance or spots gets the 400 with the missing-parameters message | high; not executed | OccupancyApi.MissingCostIsServerError | OccupancyApi.HandleOccupancyChecked, OccupancyApi.MissingCostIsReported |

The endpoint members of `Nearest` take a `PriceRule`. With `AsWritten` they model the service as written: an admitted item with a list-shaped `parking` and no comment raises, and the query answers 500. With `Corrected` they build with Extract.ExtractPrice. Nearest.BuildAgrees and Nearest.EnrichAgrees show that the corrected reading changes nothing where the code as written answers. OccupancyApi.HandleOccupancy keeps the order as written, and the corrected handler is stated beside it.

=== FILE: config.dfy ===
/** Reading settings from environment values and parsing the "lat, lon"
    coordinate text of the nearest-parking query (parser/main.py). */
module Config {
  import opened Prelude
  import opened PyText
  import opened PyNum

  /** A setting read from the environment, or the `RuntimeError` message
      the service stops with. */
  datatype Setting<T> = Value(value: T) | ConfigError(message: string)

  /** `os.getenv(name)` yields None or "": the default applies. */
  predicate Unset(raw: Option<string>) {
    raw == None || raw == Some("")
  }

  /** `_get_env_int`: the default when unset or empty, else `int(value)`. */
  function EnvInt(name: string, raw: Option<string>, default: int): (r: Setting<int>)
    ensures Unset(raw) ==> r == Value(default)
    ensures !Unset(raw) ==> (r.Value? <==> ParseInt(raw.value).Some?)
    ensures !Unset(raw) && r.Value? ==> r.value == ParseInt(raw.value).value
  {
    if Unset(raw) then Value(default)
    else match ParseInt(raw.value)
      case Some(n) => Value(n)
      case None => ConfigError("Environment variable " + name + " must be a valid integer")
  }

  /** Any integer written out in decimal is read back, whatever the default. */
  lemma EnvIntRoundTrip(name: string, n: int, default: int)
    ensures EnvInt(name, Some(IntToStr(n)), default) == Value(n)
  {
    ParseIntRoundTrip(n);
  }

  const TrueWords: set<string> := {"1", "true", "t", "yes", "y", "on"}
  const FalseWords: set<string> := {"0", "false", "f", "no", "n", "off"}

  /** `_get_env_bool`: the default when unset or empty; otherwise the stripped,
      lower-cased text must be one of the accepted spellings. */
  function EnvBool(name: string, raw: Option<string>, default: bool): (r: Setting<bool>)
    ensures Unset(raw) ==> r == Value(default)
    ensures !Unset(raw) ==> (r == Value(true) <==> Lower(Strip(raw.value)) in TrueWords)
    ensures !Unset(raw) ==> (r == Value(false) <==> Lower(Strip(raw.value)) in FalseWords)
    ensures !Unset(raw) ==> (r.ConfigError? <==> Lower(Strip(raw.value)) !in TrueWords + FalseWords)
  {
    if Unset(raw) then Value(default)
    else
      var normalized := Lower(Strip(raw.value));
      WordsDisjoint(normalized);
      if normalized in TrueWords then Value(true)
      else if normalized in FalseWords then Value(false)
      else ConfigError("Environment variable " + name
                       + " must be a boolean (accepted values: 1/0, true/false, yes/no, on/off)")
  }

  /** No spelling is accepted as both true and false. */
  lemma WordsDisjoint(w: string)
    ensures !(w in TrueWords && w in FalseWords)
  {
  }

  /** A value of only whitespace is not "unset": the emptiness test runs
      before stripping, so it is rejected instead of taking the default. */
  lemma EnvBoolBlankRejected(name: string, s: string, default: bool)
    requires s != [] && Blank(s)
    ensures EnvBool(name, Some(s), default).ConfigError?
  {
    BlankNormalizesToEmpty(s);
    EmptyIsNoWord();
  }

  lemma BlankNormalizesToEmpty(s: string)
    requires Blank(s)
    ensures Lower(Strip(s)) == []
  {
  }

  lemma EmptyIsNoWord()
    ensures [] !in TrueWords + FalseWords
  {
  }

  /** Surrounding whitespace and letter case do not matter: " YES " reads as true. */
  lemma EnvBoolPadded(name: string, a: string, b: string, default: bool)
    requires Blank(a) && Blank(b)
    ensures EnvBool(name, Some(a + "YES" + b), default) == Value(true)
  {
    PaddedYes(a, b);
    assert !Unset(Some(a + "YES" + b));
  }

  lemma PaddedYes(a: string, b: string)
    requires Blank(a) && Blank(b)
    ensures Lower(Strip(a + "YES" + b)) == "yes"
  {
    StripPadding(a, "YES", b);
    var l := Lower("YES");
    assert l[0] == 'y' && l[1] == 'e' && l[2] == 's';
  }

  /** Why `_parse_coordinates_string` rejects its input (each is a `ValueError`). */
  datatype CoordError =
    | NotTwoParts      // not exactly two comma-separated, non-blank parts
    | NotNumbers       // a part that `float()` rejects
    | OutOfRange       // latitude outside [-90, 90] or longitude outside [-180, 180]

  function CoordErrorMessage(raiseFor: string, e: CoordError): string {
    match e
    case NotTwoParts =>
      raiseFor + " must contain latitude and longitude separated by a comma, e.g. '55.7558, 37.6173'"
    case NotNumbers => raiseFor + " must contain valid floating point numbers"
    case OutOfRange => raiseFor + " must contain latitude in [-90, 90] and longitude in [-180, 180]"
  }

  datatype CoordResult = Coords(lat: real, lon: real) | CoordFailure(error: CoordError)

  predicate InRange(lat: real, lon: real) {
    -90.0 <= lat <= 90.0 && -180.0 <= lon <= 180.0
  }

  /** `_parse_coordinates_string`: split on ",", strip each part, then check
      the shape, then the numbers, then the ranges, in that order. */
  function ParseCoordinates(text: string): (r: CoordResult)
    ensures r.Coords? ==> InRange(r.lat, r.lon)
    ensures |Split(text, ',')| != 2 ==> r == CoordFailure(NotTwoParts)
    ensures |Split(text, ',')| == 2 ==> r == ParseParts(Split(text, ',')[0], Split(text, ',')[1])
  {
    var parts := Split(text, ',');
    if |parts| != 2 then CoordFailure(NotTwoParts)
    else ParseParts(parts[0], parts[1])
  }

  /** The checks on the two comma-separated parts, as they come from `split`. */
  function ParseParts(x: string, y: string): (r: CoordResult)
    ensures r == CoordFailure(NotTwoParts) <==> Blank(x) || Blank(y)
    ensures r.Coords? <==>
      && !Blank(x) && !Blank(y)
      && ParseFloat(x).Some? && ParseFloat(y).Some?
      && InRange(ParseFloat(x).value, ParseFloat(y).value)
    ensures r.Coords? ==> r.lat == ParseFloat(x).value && r.lon == ParseFloat(y).value
    ensures r == CoordFailure(NotNumbers) <==>
      !Blank(x) && !Blank(y) && (ParseFloat(x).None? || ParseFloat(y).None?)
  {
    var sx := Strip(x);
    var sy := Strip(y);
    if sx == [] || sy == [] then CoordFailure(NotTwoParts)
    else
      StripParseFloat(x);
      StripParseFloat(y);
      var lat := ParseFloat(sx);
      var lon := ParseFloat(sy);
      if lat.None? || lon.None? then CoordFailure(NotNumbers)
      else if InRange(lat.value, lon.value) then Coords(lat.value, lon.value)
      else CoordFailure(OutOfRange)
  }

  lemma NoCommaInDigits(s: string)
    requires AllDigits(s)
    ensures ',' !in s
  {
    assert forall i :: 0 <= i < |s| ==> s[i] != ',' by {
      forall i | 0 <= i < |s| ensures s[i] != ',' {
        assert IsDigit(s[i]);
      }
    }
  }

  /** Writing two in-range readings as "lat, lon" and parsing the text gives
      them back, for any spellings `float()` accepts that hold no comma. */
  lemma {:induction false} ParseCoordinatesRoundTrip(x: string, y: string, lat: real, lon: real)
    requires ',' !in x && ',' !in y
    requires ParseFloat(x) == Some(lat) && ParseFloat(y) == Some(lon)
    requires InRange(lat, lon)
    ensures ParseCoordinates(x + ", " + y) == Coords(lat, lon)
  {
    var z := " " + y;
    var text := x + ", " + y;
    CommaSpaceJoin(x, y);
    SplitAroundComma(x, z);
    assert Split(text, ',') == [x, z];
    LeadingSpaceParse(y);
    assert ParseParts(x, z) == Coords(lat, lon);
  }

  lemma CommaSpaceJoin(x: string, y: string)
    ensures x + ", " + y == x + [','] + (" " + y)
  {
  }

  /** `float(" " + y) == float(y)`. */
  lemma LeadingSpaceParse(y: string)
    ensures ParseFloat(" " + y) == ParseFloat(y)
  {
    assert Blank(" ") && Blank([]);
    assert " " + y + [] == " " + y;
    StripAbsorbsPadding(" ", y, []);
  }

  lemma SplitAroundComma(x: string, z: string)
    requires ',' !in x && ',' !in z
    ensures Split(x + [','] + z, ',') == [x, z]
  {
    var text := x + [','] + z;
    var i := IndexOf(text, ',');
    assert text[..|x|] == x;
    assert text[|x|] == ',';
    assert text[..i] == x;
    assert text[i + 1..] == z;
  }

  /** In particular "lat, lon" written with integer degrees round-trips. */
  lemma IntegerCoordinatesRoundTrip(lat: int, lon: int)
    requires -90 <= lat <= 90 && -180 <= lon <= 180
    ensures ParseCoordinates(IntToStr(lat) + ", " + IntToStr(lon)) == Coords(lat as real, lon as real)
  {
    ParseFloatOfIntToStr(lat);
    ParseFloatOfIntToStr(lon);
    IntTextHasNoComma(lat);
    IntTextHasNoComma(lon);
    ParseCoordinatesRoundTrip(IntToStr(lat), IntToStr(lon), lat as real, lon as real);
  }

  lemma IntTextHasNoComma(i: int)
    ensures ',' !in IntToStr(i)
  {
    var d := NatToStr(if i < 0 then -i else i);
    NoCommaInDigits(d);
    assert IntToStr(i) == (if i < 0 then "-" else "") + d;
  }
}

=== FILE: extract.dfy ===
/** Reading the fields of one 2GIS catalogue item: coordinates, the tariff
    text, the comment, the space counts and the purpose list
    (parser/main.py). Every function here takes the item as the decoded
    JSON object it is. */
module Extract {
  import opened Prelude
  import opened PyText
  import opened PyNum
  import opened Json

  // ----- coordinates (`_extract_coordinates`) -----

  /** The point one coordinate candidate yields, or None to try the next one.
      `lat or latitude` skips a falsy `lat` (a latitude of 0 among them). */
  function CandidatePoint(c: Json): (p: Option<(real, real)>)
    requires c.JObj?
  {
    var lat := Or(Get(c, "lat"), Get(c, "latitude"));
    var lon := Or(Get(c, "lon"), Get(c, "longitude"));
    if lat != JNull && lon != JNull && ToFloat(lat).Ok? && ToFloat(lon).Ok? then
      Some((ToFloat(lat).value, ToFloat(lon).value))
    else None
  }

  /** A candidate the search moves past: falsy, or a dict without a usable point. */
  predicate Skipped(c: Json) {
    !Truthy(c) || (c.JObj? && CandidatePoint(c).None?)
  }

  /** The first usable candidate's point; a truthy non-dict candidate makes
      `candidate.get` raise `AttributeError`, which nothing catches. */
  function FirstPoint(cands: seq<Json>): (r: Py<Option<(real, real)>>)
    ensures r.Raise? ==> r.exc == AttributeError
    ensures r == Ok(None) <==> forall i :: 0 <= i < |cands| ==> Skipped(cands[i])
    ensures r.Raise? ==>
      exists i :: 0 <= i < |cands| && Truthy(cands[i]) && !cands[i].JObj?
                  && forall j :: 0 <= j < i ==> Skipped(cands[j])
    ensures r.Ok? && r.value.Some? ==>
      exists i :: 0 <= i < |cands| && cands[i].JObj? && CandidatePoint(cands[i]) == r.value
                  && forall j :: 0 <= j < i ==> Skipped(cands[j])
  {
    var flags := seq(|cands|, i requires 0 <= i < |cands| => !Skipped(cands[i]));
    var k := FirstTrue(flags);
    assert forall j :: 0 <= j < |cands| ==> flags[j] == !Skipped(cands[j]);
    if k == |cands| then Ok(None)
    else
      assert forall j :: 0 <= j < k ==> Skipped(cands[j]);
      assert !Skipped(cands[k]);
      if !cands[k].JObj? then Raise(AttributeError)
      else Ok(CandidatePoint(cands[k]))
  }

  /** The candidates in the order `_extract_coordinates` tries them. */
  function CoordinateCandidates(item: Json): (cs: seq<Json>)
    requires item.JObj?
    ensures |cs| == 3
  {
    [Get(item, "point"), Get(item, "geometry"), Get(item, "location")]
  }

  function ExtractCoordinates(item: Json): Py<Option<(real, real)>>
    requires item.JObj?
  {
    FirstPoint(CoordinateCandidates(item))
  }

  /** A latitude of 0 under "lat" alone is skipped, because `0 or None` is
      None, and with no other candidate there is no point at all. */
  lemma ZeroLatitudeSkipped(lon: int)
    ensures ExtractCoordinates(JObj([("point", JObj([("lat", JInt(0)), ("lon", JInt(lon))]))])) == Ok(None)
  {
    var p := JObj([("lat", JInt(0)), ("lon", JInt(lon))]);
    GetTwo("lat", JInt(0), "lon", JInt(lon), "lat");
    GetTwo("lat", JInt(0), "lon", JInt(lon), "latitude");
    assert Or(Get(p, "lat"), Get(p, "latitude")) == JNull;
    OnlyPoint(p);
  }

  /** The same latitude of 0 given under both keys is kept: `or` then yields
      its last operand, 0. */
  lemma ZeroLatitudeKept(lon: int)
    requires lon != 0
    ensures ExtractCoordinates(JObj([("point", JObj([("lat", JInt(0)), ("latitude", JInt(0)), ("lon", JInt(lon))]))]))
            == Ok(Some((0.0, lon as real)))
  {
    var p := JObj([("lat", JInt(0)), ("latitude", JInt(0)), ("lon", JInt(lon))]);
    BothZeroLatitudes(lon);
    UsablePoint(p);
  }

  lemma BothZeroLatitudes(lon: int)
    requires lon != 0
    ensures CandidatePoint(JObj([("lat", JInt(0)), ("latitude", JInt(0)), ("lon", JInt(lon))])) == Some((0.0, lon as real))
  {
    var p := JObj([("lat", JInt(0)), ("latitude", JInt(0)), ("lon", JInt(lon))]);
    GetThree("lat", JInt(0), "latitude", JInt(0), "lon", JInt(lon), "lat");
    GetThree("lat", JInt(0), "latitude", JInt(0), "lon", JInt(lon), "latitude");
    GetThree("lat", JInt(0), "latitude", JInt(0), "lon", JInt(lon), "lon");
    GetThree("lat", JInt(0), "latitude", JInt(0), "lon", JInt(lon), "longitude");
  }

  /** A usable "point" is the answer. */
  lemma UsablePoint(p: Json)
    requires p.JObj? && CandidatePoint(p).Some?
    ensures ExtractCoordinates(JObj([("point", p)])) == Ok(CandidatePoint(p))
  {
    OnlyPoint(p);
    assert !Skipped([p, JNull, JNull][0]);
  }

  /** An item with nothing but a "point" offers just that candidate. */
  lemma OnlyPoint(p: Json)
    ensures CoordinateCandidates(JObj([("point", p)])) == [p, JNull, JNull]
  {
    GetOne("point", p, "point");
    GetOne("point", p, "geometry");
    GetOne("point", p, "location");
  }

  /** A point given as text rather than a dict aborts the whole item. */
  lemma TextPointRaises(s: string)
    requires s != []
    ensures ExtractCoordinates(JObj([("point", JStr(s))])) == Raise(AttributeError)
  {
    OnlyPoint(JStr(s));
  }

  // ----- price formatting (`_format_price`) -----

  const Rouble: string := "₽"

  /** The present, non-empty formatted values, in order (`[v for v in ... if v]`). */
  function Present(vs: seq<Option<string>>): (r: seq<string>)
    ensures forall k :: 0 <= k < |r| ==> r[k] != []
    ensures |r| <= |vs|
  {
    if vs == [] then []
    else if vs[0].Some? && vs[0].value != [] then [vs[0].value] + Present(vs[1..])
    else Present(vs[1..])
  }

  /** A number or boolean (a Python `int`) is shown with the rouble sign. */
  function WithRouble(v: Json): string {
    Str(v) + " " + Rouble
  }

  /** `_format_price`: a human tariff text from whatever shape the catalogue uses. */
  function FormatPrice(v: Json): (r: Option<string>)
    ensures v.JNull? ==> r.None?
    ensures v.JStr? ==> (r.None? <==> Blank(v.s))
    ensures v.JStr? && r.Some? ==> r.value == Strip(v.s) && IsStripped(r.value)
    ensures (v.JBool? || v.JInt? || v.JFloat?) ==> r == Some(WithRouble(v))
    ensures v.JArr? && r.Some? ==> r.value != []
    ensures r == Some([]) ==> v.JObj?
    ensures v == JArr([]) ==> r.None?
    decreases v, 2
  {
    match v
    case JNull => None
    case JStr(s) => if Blank(s) then None else Some(Strip(s))
    case JObj(_) => FormatDict(v)
    case JArr(_) => FormatList(v)
    case _ => Some(WithRouble(v))
  }

  /** A dict: its amount with currency and unit, or else its nested tariffs. */
  function FormatDict(v: Json): Option<string>
    requires v.JObj?
    decreases v, 1
  {
    var amount := Or(Or(Get(v, "value"), Get(v, "amount")), Get(v, "cost"));
    if amount != JNull then Some(AmountText(v, amount))
    else
      var nested := Or(Get(v, "items"), Get(v, "tariffs"));
      if Truthy(nested) then FormatPrice(nested) else None
  }

  /** A list: the non-empty texts of its elements joined with "; ". */
  function FormatList(v: Json): (r: Option<string>)
    requires v.JArr?
    ensures r.Some? ==> r.value != []
    decreases v, 1
  {
    var vals := Present(seq(|v.items|, k requires 0 <= k < |v.items| => FormatPrice(v.items[k])));
    if vals == [] then None
    else
      JoinNonEmpty(vals, "; ");
      Some(Join(vals, "; "))
  }

  /** "<amount> <currency>" stripped, then " / <unit>" when a unit is truthy. */
  function AmountText(v: Json, amount: Json): string
    requires v.JObj?
  {
    var currency := Or(Or(Get(v, "currency"), Get(v, "currency_code")), JStr(Rouble));
    var unit := Or(Or(Get(v, "unit"), Get(v, "period")), Get(v, "time"));
    var base := Strip(Str(amount) + " " + Str(currency));
    if Truthy(unit) then base + " / " + Str(unit) else base
  }

  /** The list formatting of a concatenation joins the two halves' texts. */
  function JoinTexts(a: Option<string>, b: Option<string>): Option<string> {
    match (a, b)
    case (Some(x), Some(y)) => Some(x + "; " + y)
    case (Some(_), None) => a
    case (None, _) => b
  }

  lemma {:induction false} PresentAppend(a: seq<Option<string>>, b: seq<Option<string>>)
    ensures Present(a + b) == Present(a) + Present(b)
  {
    if a != [] {
      assert (a + b)[1..] == a[1..] + b;
      PresentAppend(a[1..], b);
    } else {
      assert a + b == b;
    }
  }

  lemma {:induction false} JoinAppend(p: seq<string>, q: seq<string>, sep: string)
    requires p != [] && q != []
    ensures Join(p + q, sep) == Join(p, sep) + sep + Join(q, sep)
  {
    if |p| > 1 {
      assert (p + q)[1..] == p[1..] + q;
      JoinAppend(p[1..], q, sep);
    } else {
      assert (p + q)[1..] == q;
    }
  }

  function FormatEach(xs: seq<Json>): (r: seq<Option<string>>)
    ensures |r| == |xs| && forall k :: 0 <= k < |xs| ==> r[k] == FormatPrice(xs[k])
  {
    seq(|xs|, k requires 0 <= k < |xs| => FormatPrice(xs[k]))
  }

  lemma FormatListUnfold(xs: seq<Json>)
    ensures FormatPrice(JArr(xs)) ==
      (var vals := Present(FormatEach(xs)); if vals == [] then None else Some(Join(vals, "; ")))
  {
    assert FormatPrice(JArr(xs)) == FormatList(JArr(xs));
    assert FormatEach(xs) == seq(|xs|, k requires 0 <= k < |xs| => FormatPrice(xs[k]));
  }

  lemma FormatEachAppend(a: seq<Json>, b: seq<Json>)
    ensures FormatEach(a + b) == FormatEach(a) + FormatEach(b)
  {
    var l, r := FormatEach(a + b), FormatEach(a) + FormatEach(b);
    assert |l| == |r|;
    forall k | 0 <= k < |l|
      ensures l[k] == r[k]
    {
      if k < |a| { assert (a + b)[k] == a[k]; } else { assert (a + b)[k] == b[k - |a|]; }
    }
  }

  /** Formatting a concatenated list joins the formatted halves with "; ". */
  lemma FormatListAppend(a: seq<Json>, b: seq<Json>)
    ensures FormatPrice(JArr(a + b)) == JoinTexts(FormatPrice(JArr(a)), FormatPrice(JArr(b)))
  {
    FormatListUnfold(a);
    FormatListUnfold(b);
    FormatListUnfold(a + b);
    FormatEachAppend(a, b);
    PresentAppend(FormatEach(a), FormatEach(b));
    var pa, pb := Present(FormatEach(a)), Present(FormatEach(b));
    if pa != [] && pb != [] {
      JoinAppend(pa, pb, "; ");
    } else if pa == [] {
      assert pa + pb == pb;
    } else {
      assert pa + pb == pa;
    }
  }

  /** A one-element list formats like its element, unless that element's
      text is absent or empty. */
  lemma FormatSingleton(x: Json)
    ensures FormatPrice(JArr([x])) ==
      (if FormatPrice(x).Some? && FormatPrice(x).value != [] then FormatPrice(x) else None)
  {
    FormatListUnfold([x]);
    assert FormatEach([x]) == [FormatPrice(x)];
    assert FormatEach([x])[1..] == [];
  }

  /** A dict with only an amount formats like the bare number, with the
      default currency. */
  lemma FormatDictAmount(n: int)
    requires n != 0
    ensures FormatPrice(JObj([("value", JInt(n))])) == FormatPrice(JInt(n))
  {
    AmountOnly("value", n);
    NoEdgeSpace(Str(JInt(n)), Rouble);
  }

  /** A zero under "value" is falsy and skipped, so nothing is formatted;
      a zero under "cost" is the last operand of the `or` chain and is kept. */
  lemma FormatZeroAmount()
    ensures FormatPrice(JObj([("value", JInt(0))])) == None
    ensures FormatPrice(JObj([("cost", JInt(0))])) == Some("0 ₽")
  {
    ZeroValueSkipped();
    ZeroCostKept();
  }

  lemma ZeroCostKept()
    ensures FormatPrice(JObj([("cost", JInt(0))])) == Some("0 ₽")
  {
    AmountOnly("cost", 0);
    ZeroRouble();
  }

  lemma ZeroRouble()
    ensures Strip(Str(JInt(0)) + " " + Rouble) == "0 ₽"
  {
    assert Str(JInt(0)) == "0";
    NoEdgeSpace("0", Rouble);
    var t := "0" + " " + Rouble;
    assert |t| == 3 && t[0] == '0' && t[1] == ' ' && t[2] == '₽';
    assert t == "0 ₽";
  }

  lemma ZeroValueSkipped()
    ensures FormatPrice(JObj([("value", JInt(0))])) == None
  {
    assert FormatPrice(JObj([("value", JInt(0))])) == FormatDict(JObj([("value", JInt(0))]));
    GetOne("value", JInt(0), "value");
    GetOne("value", JInt(0), "amount");
    GetOne("value", JInt(0), "cost");
    GetOne("value", JInt(0), "items");
    GetOne("value", JInt(0), "tariffs");
  }

  /** A dict holding one amount key and nothing else, under a key the amount
      chain reaches whenever the amount is truthy or the key is "cost". */
  lemma AmountOnly(key: string, n: int)
    requires key in {"value", "amount", "cost"}
    requires n != 0 || key == "cost"
    ensures FormatPrice(JObj([(key, JInt(n))])) == Some(Strip(Str(JInt(n)) + " " + Rouble))
  {
    var d := JObj([(key, JInt(n))]);
    GetOne(key, JInt(n), "value");
    GetOne(key, JInt(n), "amount");
    GetOne(key, JInt(n), "cost");
    assert Or(Or(Get(d, "value"), Get(d, "amount")), Get(d, "cost")) == JInt(n);
    GetOne(key, JInt(n), "currency");
    GetOne(key, JInt(n), "currency_code");
    GetOne(key, JInt(n), "unit");
    GetOne(key, JInt(n), "period");
    GetOne(key, JInt(n), "time");
    assert AmountText(d, JInt(n)) == Strip(Str(JInt(n)) + " " + Rouble);
  }

  /** Any dict whose `value` is a non-zero integer, with an explicit currency
      and a unit, formats as "<amount> <currency> / <unit>", whatever else it holds. */
  lemma FormatDictCurrencyUnit(d: Json, n: int, currency: string, unit: string)
    requires d.JObj? && n != 0 && Get(d, "value") == JInt(n)
    requires currency != [] && IsStripped(currency) && Get(d, "currency") == JStr(currency)
    requires unit != [] && Get(d, "unit") == JStr(unit)
    ensures FormatPrice(d) == Some(IntToStr(n) + " " + currency + " / " + unit)
  {
    assert Or(Or(Get(d, "value"), Get(d, "amount")), Get(d, "cost")) == JInt(n);
    assert Or(Or(Get(d, "currency"), Get(d, "currency_code")), JStr(Rouble)) == JStr(currency);
    assert Or(Or(Get(d, "unit"), Get(d, "period")), Get(d, "time")) == JStr(unit);
    assert FormatPrice(d) == FormatDict(d);
    assert FormatDict(d) == Some(AmountText(d, JInt(n)));
    CurrencyBase(n, currency);
  }

  lemma CurrencyBase(n: int, currency: string)
    requires currency != [] && IsStripped(currency)
    ensures Strip(Str(JInt(n)) + " " + Str(JStr(currency))) == IntToStr(n) + " " + currency
  {
    StrOfInt(n);
    NoEdgeSpace(IntToStr(n), currency);
  }

  /** Any dict whose `or` chain of amounts comes out None (falsy `value` and
      `amount`, no `cost`) formats like its truthy `items`, or else its `tariffs`. */
  lemma FormatDictNested(d: Json)
    requires d.JObj? && !Truthy(Get(d, "value")) && !Truthy(Get(d, "amount")) && Get(d, "cost").JNull?
    requires Truthy(Or(Get(d, "items"), Get(d, "tariffs")))
    ensures FormatPrice(d) == FormatPrice(Or(Get(d, "items"), Get(d, "tariffs")))
  {
    assert Or(Or(Get(d, "value"), Get(d, "amount")), Get(d, "cost")) == JNull;
    assert FormatPrice(d) == FormatDict(d);
  }

  lemma NoEdgeSpace(a: string, b: string)
    requires a != [] && b != [] && !IsSpace(a[0]) && !IsSpace(b[|b| - 1])
    ensures Strip(a + " " + b) == a + " " + b
  {
    var t := a + " " + b;
    assert t[0] == a[0] && t[|t| - 1] == b[|b| - 1];
    StripPadding([], t, []);
    assert [] + t + [] == t;
  }

  // ----- tariff comment (`_extract_parking_comment`) -----

  /** The stripped text of a non-blank string, None for anything else. */
  function NonBlankText(v: Json): (r: Option<string>)
    ensures r.Some? ==> r.value != [] && IsStripped(r.value)
    ensures r.Some? <==> v.JStr? && !Blank(v.s)
  {
    if v.JStr? && !Blank(v.s) then Some(Strip(v.s)) else None
  }

  /** The dict entries of a list, in order. */
  function Dicts(xs: seq<Json>): (r: seq<Json>)
    ensures forall k :: 0 <= k < |r| ==> r[k].JObj?
    ensures forall x :: x in r <==> x in xs && x.JObj?
  {
    if xs == [] then []
    else if xs[0].JObj? then [xs[0]] + Dicts(xs[1..])
    else Dicts(xs[1..])
  }

  /** The dicts searched for a comment: `parking` itself and the dicts of its
      `items` when it is a dict, or its dict entries when it is a list. */
  function CommentCandidates(item: Json): (cs: seq<Json>)
    requires item.JObj?
    ensures forall k :: 0 <= k < |cs| ==> cs[k].JObj?
    ensures Get(item, "parking").JObj? ==>
      && cs != [] && cs[0] == Get(item, "parking")
      && forall x :: x in cs[1..] <==>
           Get(Get(item, "parking"), "items").JArr? && x in Get(Get(item, "parking"), "items").items && x.JObj?
    ensures Get(item, "parking").JArr? ==> forall x :: x in cs <==> x in Get(item, "parking").items && x.JObj?
    ensures !Get(item, "parking").JObj? && !Get(item, "parking").JArr? ==> cs == []
  {
    var p := Get(item, "parking");
    if p.JObj? then
      var nested := Get(p, "items");
      [p] + (if nested.JArr? then Dicts(nested.items) else [])
    else if p.JArr? then Dicts(p.items)
    else []
  }

  /** Keeping the dicts of a list keeps their order: the dicts of a
      concatenation are the dicts of its first part, then those of its second. */
  lemma {:induction false} DictsAppend(a: seq<Json>, b: seq<Json>)
    ensures Dicts(a + b) == Dicts(a) + Dicts(b)
  {
    if a == [] {
      assert a + b == b;
    } else {
      assert (a + b)[0] == a[0];
      assert (a + b)[1..] == a[1..] + b;
      DictsAppend(a[1..], b);
    }
  }

  function CommentOf(e: Json): Option<string>
    requires e.JObj?
  {
    NonBlankText(Get(e, "comment"))
  }

  /** An entry with a usable comment whose id, compared as `str`, is the target
      (any entry when there is no target). */
  predicate Eligible(e: Json, target: Option<Json>)
    requires e.JObj?
  {
    CommentOf(e).Some? && (target.None? || Str(Get(e, "id")) == Str(target.value))
  }

  /** The position of the first eligible entry, or the length when there is none. */
  function FirstEligible(es: seq<Json>, target: Option<Json>): (k: nat)
    requires forall i :: 0 <= i < |es| ==> es[i].JObj?
    ensures k <= |es|
    ensures k < |es| ==> Eligible(es[k], target)
    ensures forall j :: 0 <= j < k ==> !Eligible(es[j], target)
  {
    var flags := seq(|es|, i requires 0 <= i < |es| => Eligible(es[i], target));
    assert forall j :: 0 <= j < |es| ==> flags[j] == Eligible(es[j], target);
    FirstTrue(flags)
  }

  /** The comment of the first eligible entry. */
  function FirstComment(es: seq<Json>, target: Option<Json>): (r: Option<string>)
    requires forall k :: 0 <= k < |es| ==> es[k].JObj?
    ensures r.None? <==> forall k :: 0 <= k < |es| ==> !Eligible(es[k], target)
    ensures r.Some? ==> FirstEligible(es, target) < |es| && r == CommentOf(es[FirstEligible(es, target)])
  {
    var k := FirstEligible(es, target);
    if k == |es| then None else CommentOf(es[k])
  }

  /** The comment of a given eligible entry with none eligible before it. */
  lemma FirstCommentIs(es: seq<Json>, target: Option<Json>, k: nat)
    requires forall i :: 0 <= i < |es| ==> es[i].JObj?
    requires k < |es| && Eligible(es[k], target)
    requires forall j :: 0 <= j < k ==> !Eligible(es[j], target)
    ensures FirstComment(es, target) == CommentOf(es[k])
  {
    var f := FirstEligible(es, target);
    assert !(f < k) && !(k < f);
  }

  /** `_extract_parking_comment`: the entry with the target id first, then any
      entry, then the item's own `parking_comment`. */
  function ExtractParkingComment(item: Json, targetId: Json): (r: Option<string>)
    requires item.JObj?
    ensures r.Some? ==> r.value != [] && IsStripped(r.value)
    ensures r.None? <==>
      && (forall k :: 0 <= k < |CommentCandidates(item)| ==> !Eligible(CommentCandidates(item)[k], None))
      && NonBlankText(Get(item, "parking_comment")).None?
  {
    var cs := CommentCandidates(item);
    var byId := if targetId != JNull then FirstComment(cs, Some(targetId)) else None;
    if byId.Some? then
      assert exists k :: 0 <= k < |cs| && Eligible(cs[k], None);
      byId
    else
      var any := FirstComment(cs, None);
      if any.Some? then any else NonBlankText(Get(item, "parking_comment"))
  }

  /** A comment on the entry with the target id wins over an earlier entry's comment. */
  lemma TargetCommentWins(item: Json, targetId: Json, k: nat)
    requires item.JObj? && targetId != JNull
    requires k < |CommentCandidates(item)| && Eligible(CommentCandidates(item)[k], Some(targetId))
    requires forall j :: 0 <= j < k ==> !Eligible(CommentCandidates(item)[j], Some(targetId))
    ensures ExtractParkingComment(item, targetId) == CommentOf(CommentCandidates(item)[k])
  {
    FirstCommentIs(CommentCandidates(item), Some(targetId), k);
  }

  /** When no entry with the target id has a comment (or there is no target),
      the first entry with a usable comment supplies it. */
  lemma AnyCommentWhenNoTargetMatch(item: Json, targetId: Json, k: nat)
    requires item.JObj?
    requires targetId == JNull || forall j :: 0 <= j < |CommentCandidates(item)| ==> !Eligible(CommentCandidates(item)[j], Some(targetId))
    requires k < |CommentCandidates(item)| && Eligible(CommentCandidates(item)[k], None)
    requires forall j :: 0 <= j < k ==> !Eligible(CommentCandidates(item)[j], None)
    ensures ExtractParkingComment(item, targetId) == CommentOf(CommentCandidates(item)[k])
  {
    var cs := CommentCandidates(item);
    FirstCommentIs(cs, None, k);
    if targetId != JNull {
      assert FirstComment(cs, Some(targetId)).None?;
    }
  }

  /** Without any usable entry the item's own `parking_comment` is the answer. */
  lemma GenericCommentLast(item: Json, targetId: Json)
    requires item.JObj?
    requires forall k :: 0 <= k < |CommentCandidates(item)| ==> !Eligible(CommentCandidates(item)[k], None)
    ensures ExtractParkingComment(item, targetId) == NonBlankText(Get(item, "parking_comment"))
  {
    var cs := CommentCandidates(item);
    if targetId != JNull {
      assert forall k :: 0 <= k < |cs| ==> !Eligible(cs[k], Some(targetId));
    }
  }

  // ----- price text (`_extract_price`) -----

  const PaidUnknown: string := "Платная (тариф не указан)"
  const FreeText: string := "Бесплатно"

  function TextJson(o: Option<string>): Json {
    match o
    case Some(s) => JStr(s)
    case None => JNull
  }

  /** The value formats to a non-empty text. */
  predicate Formats(v: Json) {
    FormatPrice(v).Some? && FormatPrice(v).value != []
  }

  /** The position of the first source that formats to a non-empty text, or
      the length when there is none. */
  function FirstFormattedAt(srcs: seq<Json>): (k: nat)
    ensures k <= |srcs|
    ensures k < |srcs| ==> Formats(srcs[k])
    ensures forall j :: 0 <= j < k ==> !Formats(srcs[j])
  {
    FirstTrue(FormatFlags(srcs))
  }

  /** Which sources format to a non-empty text. */
  function FormatFlags(srcs: seq<Json>): (flags: seq<bool>)
    ensures |flags| == |srcs|
    ensures forall j :: 0 <= j < |srcs| ==> flags[j] == Formats(srcs[j])
  {
    seq(|srcs|, i requires 0 <= i < |srcs| => Formats(srcs[i]))
  }

  /** The text of the first source that formats to a non-empty text. */
  function FirstFormatted(srcs: seq<Json>): (r: Option<string>)
    ensures r.Some? ==> r.value != []
    ensures r.None? <==> forall k :: 0 <= k < |srcs| ==> !Formats(srcs[k])
    ensures r.Some? ==> FirstFormattedAt(srcs) < |srcs| && r == FormatPrice(srcs[FirstFormattedAt(srcs)])
  {
    var k := FirstFormattedAt(srcs);
    if k == |srcs| then None else FormatPrice(srcs[k])
  }

  /** The comment `_extract_price` would return, possibly falsy. */
  function PriceComment(item: Json, fallback: Json): Json
    requires item.JObj?
  {
    Or(fallback, TextJson(ExtractParkingComment(item, Get(item, "id"))))
  }

  /** `price`, then the parking info's `price`, `tariffs` and `payment`. */
  function PriceSources(item: Json, info: Json): seq<Json>
    requires item.JObj? && info.JObj?
  {
    [Get(item, "price"), Get(info, "price"), Get(info, "tariffs"), Get(info, "payment")]
  }

  /** After the comment: the first formatted source, or the paid/free default. */
  function PriceAfterComment(item: Json, info: Json): (r: string)
    requires item.JObj? && info.JObj?
    ensures r != []
    ensures FirstFormatted(PriceSources(item, info)).Some? ==> r == FirstFormatted(PriceSources(item, info)).value
    ensures FirstFormatted(PriceSources(item, info)).None? ==>
      r == (if Truthy(Get(item, "is_paid")) then PaidUnknown else FreeText)
  {
    match FirstFormatted(PriceSources(item, info))
    case Some(s) => s
    case None => if Truthy(Get(item, "is_paid")) then PaidUnknown else FreeText
  }

  /** `_extract_price` as written: `parking or {}` is used as a dict, so a
      truthy `parking` that is not a dict raises `AttributeError` at
      `parking_info.get("price")` once no comment was found. */
  function ExtractPriceAsWritten(item: Json, fallback: Json): (r: Py<Json>)
    requires item.JObj?
    ensures r.Raise? <==>
      !Truthy(PriceComment(item, fallback)) && Truthy(Get(item, "parking")) && !Get(item, "parking").JObj?
  {
    var comment := PriceComment(item, fallback);
    if Truthy(comment) then Ok(comment)
    else
      var info := Or(Get(item, "parking"), JObj([]));
      if !info.JObj? then Raise(AttributeError)
      else Ok(JStr(PriceAfterComment(item, info)))
  }

  /** The parking info the price sources are read from: `parking` when it is
      a dict, `{}` otherwise. */
  function ParkingInfo(item: Json): (info: Json)
    requires item.JObj?
    ensures info.JObj?
    ensures Get(item, "parking").JObj? ==> info == Get(item, "parking")
    ensures !Get(item, "parking").JObj? ==> info.fields == []
  {
    if Get(item, "parking").JObj? then Get(item, "parking") else JObj([])
  }

  /** `_extract_price` with a non-dict `parking` read as `{}`, the way
      `_extract_spaces` already treats it. The result is never falsy: a
      truthy comment as found, otherwise the first source that formats to a
      non-empty text, otherwise the paid/free default. */
  function ExtractPrice(item: Json, fallback: Json): (r: Json)
    requires item.JObj?
    ensures Truthy(r)
    ensures Truthy(fallback) ==> r == fallback
    ensures !Truthy(fallback) ==> r.JStr? && r.s != []
    ensures !Truthy(fallback) && ExtractParkingComment(item, Get(item, "id")).Some? ==>
      r == JStr(ExtractParkingComment(item, Get(item, "id")).value)
    ensures !Truthy(PriceComment(item, fallback)) ==> r == JStr(PriceAfterComment(item, ParkingInfo(item)))
  {
    var comment := PriceComment(item, fallback);
    if Truthy(comment) then comment
    else JStr(PriceAfterComment(item, ParkingInfo(item)))
  }

  /** A source that formats, with none formatting before it, supplies the text. */
  lemma FirstFormattedIs(srcs: seq<Json>, k: nat)
    requires k < |srcs| && Formats(srcs[k])
    requires forall j :: 0 <= j < k ==> !Formats(srcs[j])
    ensures FirstFormatted(srcs) == FormatPrice(srcs[k])
  {
    FirstTrueIs(FormatFlags(srcs), k);
    assert FirstFormattedAt(srcs) == k;
  }

  /** With no comment, the price is the text of the first source, in the
      order `price`, `parking.price`, `parking.tariffs`, `parking.payment`,
      that formats to something non-empty. */
  lemma PriceFromSource(item: Json, fallback: Json, k: nat)
    requires item.JObj? && !Truthy(PriceComment(item, fallback))
    requires k < 4
    requires Formats(PriceSources(item, ParkingInfo(item))[k])
    requires forall j :: 0 <= j < k ==> !Formats(PriceSources(item, ParkingInfo(item))[j])
    ensures ExtractPrice(item, fallback) == JStr(FormatPrice(PriceSources(item, ParkingInfo(item))[k]).value)
  {
    FirstFormattedIs(PriceSources(item, ParkingInfo(item)), k);
  }

  /** Wherever the code as written does not raise, the corrected reading agrees with it. */
  lemma PriceAgreesWhenNoRaise(item: Json, fallback: Json)
    requires item.JObj?
    requires ExtractPriceAsWritten(item, fallback).Ok?
    ensures ExtractPriceAsWritten(item, fallback).value == ExtractPrice(item, fallback)
  {
    AsWrittenValue(item, fallback);
    CorrectedValue(item, fallback);
  }

  /** The value `_extract_price` returns when it does not raise. */
  function PriceValue(item: Json, fallback: Json, info: Json): Json
    requires item.JObj? && info.JObj?
  {
    var comment := PriceComment(item, fallback);
    if Truthy(comment) then comment else JStr(PriceAfterComment(item, info))
  }

  lemma AsWrittenValue(item: Json, fallback: Json)
    requires item.JObj?
    requires ExtractPriceAsWritten(item, fallback).Ok?
    ensures !Truthy(PriceComment(item, fallback)) ==> Get(item, "parking").JObj? || !Truthy(Get(item, "parking"))
    ensures ExtractPriceAsWritten(item, fallback).value == PriceValue(item, fallback, ParkingInfo(item))
  {
    var comment := PriceComment(item, fallback);
    if !Truthy(comment) {
      var info := Or(Get(item, "parking"), JObj([]));
      OrEmptyIsInfo(item);
      assert ExtractPriceAsWritten(item, fallback) == Ok(JStr(PriceAfterComment(item, info)));
    }
  }

  /** `parking or {}`, when it is a dict, is the parking info. */
  lemma OrEmptyIsInfo(item: Json)
    requires item.JObj?
    ensures Or(Get(item, "parking"), JObj([])).JObj? ==> Or(Get(item, "parking"), JObj([])) == ParkingInfo(item)
  {
    var parking := Get(item, "parking");
    if parking.JObj? && !Truthy(parking) {
      assert parking == JObj([]);
    }
  }

  lemma CorrectedValue(item: Json, fallback: Json)
    requires item.JObj?
    ensures ExtractPrice(item, fallback) == PriceValue(item, fallback, ParkingInfo(item))
  {
  }

  /** With no comment and no source that formats to a non-empty text, the
      default text follows `is_paid`. */
  lemma PriceDefault(item: Json, fallback: Json)
    requires item.JObj? && !Truthy(PriceComment(item, fallback))
    requires forall k :: 0 <= k < 4 ==> !Formats(PriceSources(item, ParkingInfo(item))[k])
    ensures ExtractPrice(item, fallback) == JStr(if Truthy(Get(item, "is_paid")) then PaidUnknown else FreeText)
  {
    assert FirstFormatted(PriceSources(item, ParkingInfo(item))).None?;
  }

  /** A paid item whose `parking` is a list of entries without comments:
      the code as written raises, the corrected reading answers with the
      paid-without-tariff text. */
  lemma ParkingListCounterexample()
    ensures ExtractPriceAsWritten(ListParkingItem, JNull) == Raise(AttributeError)
    ensures ExtractPrice(ListParkingItem, JNull) == JStr(PaidUnknown)
  {
    ListParkingHasNoComment();
    var item := ListParkingItem;
    GetTwo("is_paid", JBool(true), "parking", JArr([JObj([("id", JStr("1"))])]), "price");
    GetTwo("is_paid", JBool(true), "parking", JArr([JObj([("id", JStr("1"))])]), "is_paid");
    var info := JObj([]);
    assert Get(info, "price") == JNull && Get(info, "tariffs") == JNull && Get(info, "payment") == JNull;
    assert FirstFormatted(PriceSources(item, info)) == None;
  }

  /** The item of the counterexample: paid, with one comment-less parking entry in a list. */
  const ListParkingItem: Json :=
    JObj([("is_paid", JBool(true)), ("parking", JArr([JObj([("id", JStr("1"))])]))])

  lemma ListParkingHasNoComment()
    ensures Get(ListParkingItem, "parking") == JArr([JObj([("id", JStr("1"))])])
    ensures PriceComment(ListParkingItem, JNull) == JNull
  {
    var entry := JObj([("id", JStr("1"))]);
    var item := ListParkingItem;
    GetTwo("is_paid", JBool(true), "parking", JArr([entry]), "parking");
    GetTwo("is_paid", JBool(true), "parking", JArr([entry]), "id");
    GetTwo("is_paid", JBool(true), "parking", JArr([entry]), "parking_comment");
    GetOne("id", JStr("1"), "comment");
    assert Dicts([entry]) == [entry];
    assert CommentCandidates(item) == [entry];
    assert !Eligible(entry, None);
    assert ExtractParkingComment(item, JNull) == None;
  }

  // ----- space counts (`_extract_spaces`) -----

  /** `parking.spaces.common`, when every step of that path is a dict. */
  function CommonBlock(item: Json): Option<Json>
    requires item.JObj?
  {
    var info := Or(Get(item, "parking"), JObj([]));
    var spaces := if info.JObj? then Get(info, "spaces") else JNull;
    if spaces.JObj? && Get(spaces, "common").JObj? then Some(Get(spaces, "common")) else None
  }

  /** The capacity fallback: `int(capacity)`, or else `int(capacity["total"])`
      when capacity is a dict; a failed conversion gives None. */
  function CapacityCount(cap: Json): (r: Option<int>)
    ensures cap.JObj? ==> r == IntOrNone(Get(cap, "total"))
    ensures !cap.JObj? ==> r == IntOrNone(cap)
  {
    if cap.JNull? then None
    else match ToInt(cap)
      case Ok(n) => Some(n)
      case Raise(_) => if cap.JObj? then IntOrNone(Get(cap, "total")) else None
  }

  /** `_extract_spaces`: (total, free) from the common block, or (capacity, None). */
  function ExtractSpaces(item: Json): (r: (Option<int>, Option<int>))
    requires item.JObj?
    ensures CommonBlock(item).Some? ==>
      r == (IntOrNone(Get(CommonBlock(item).value, "total")), IntOrNone(Get(CommonBlock(item).value, "free")))
    ensures CommonBlock(item).None? ==> r.1.None? && r.0 == CapacityCount(Get(item, "capacity"))
  {
    match CommonBlock(item)
    case Some(common) => (IntOrNone(Get(common, "total")), IntOrNone(Get(common, "free")))
    case None => (CapacityCount(Get(item, "capacity")), None)
  }

  /** A capacity given as decimal text, as {"total": n} or as a float with
      no fractional part is read as n. */
  lemma CapacityShapes(n: int)
    ensures CapacityCount(JStr(IntToStr(n))) == Some(n)
    ensures CapacityCount(JObj([("total", JInt(n))])) == Some(n)
    ensures CapacityCount(JFloat(n as real, IntToStr(n) + ".0")) == Some(n)
  {
    CapacityText(n);
    CapacityTotal(n);
    CapacityFloat(n as real, IntToStr(n) + ".0");
  }

  lemma CapacityFloat(f: real, text: string)
    requires f == f.Floor as real
    ensures CapacityCount(JFloat(f, text)) == Some(f.Floor)
  {
    assert Trunc(f) == f.Floor;
  }

  lemma CapacityText(n: int)
    ensures CapacityCount(JStr(IntToStr(n))) == Some(n)
  {
    StrOfInt(n);
  }

  lemma CapacityTotal(n: int)
    ensures CapacityCount(JObj([("total", JInt(n))])) == Some(n)
  {
    GetOne("total", JInt(n), "total");
  }

  // ----- purposes (`_normalize_purpose_values`) -----

  /** A purpose word as the normaliser leaves it: non-empty, stripped, lower case. */
  predicate IsWord(w: string) {
    w != [] && IsStripped(w) && IsLower(w)
  }

  /** `w.strip().lower()` of a word that is not blank. */
  function CleanWord(w: string): (c: string)
    requires !Blank(w)
    ensures IsWord(c)
  {
    var t := Strip(w);
    LowerIsLower(t);
    LowerStripped(t);
    Lower(t)
  }

  lemma WordsCons(w: string, tail: seq<string>)
    requires IsWord(w) && forall k :: 0 <= k < |tail| ==> IsWord(tail[k])
    ensures forall k :: 0 <= k < |[w] + tail| ==> IsWord(([w] + tail)[k])
  {
    var r := [w] + tail;
    forall k | 0 <= k < |r| ensures IsWord(r[k]) {
      if k > 0 { assert r[k] == tail[k - 1]; }
    }
  }

  /** `[w.strip().lower() for w in words if w.strip()]`. */
  function CleanWords(ws: seq<string>): (ps: seq<string>)
    ensures |ps| <= |ws|
    ensures forall k :: 0 <= k < |ps| ==> IsWord(ps[k])
  {
    if ws == [] then []
    else
      var tail := CleanWords(ws[1..]);
      if Blank(ws[0]) then tail
      else
        WordsCons(CleanWord(ws[0]), tail);
        [CleanWord(ws[0])] + tail
  }

  function StrEach(xs: seq<Json>): (r: seq<string>)
    ensures |r| == |xs| && forall k :: 0 <= k < |xs| ==> r[k] == Str(xs[k])
  {
    seq(|xs|, k requires 0 <= k < |xs| => Str(xs[k]))
  }

  /** The raw purpose texts: `str` of a list's elements, or the
      comma-separated parts of `str(value)`. */
  function PurposeParts(raw: Json): seq<string> {
    if raw.JArr? then StrEach(raw.items) else Split(Str(raw), ',')
  }

  /** The text `x` is not blank and cleans to `w`. */
  predicate CleansTo(x: string, w: string) {
    !Blank(x) && CleanWord(x) == w
  }

  /** A word is kept exactly when some text cleans to it. */
  lemma {:induction false} CleanWordsMembers(ws: seq<string>)
    ensures forall w :: w in CleanWords(ws) <==> exists k :: 0 <= k < |ws| && CleansTo(ws[k], w)
  {
    if ws != [] {
      var tail := ws[1..];
      CleanWordsMembers(tail);
      CleanWordsStep(ws);
      forall w ensures w in CleanWords(ws) <==> exists k :: 0 <= k < |ws| && CleansTo(ws[k], w) {
        if w in CleanWords(ws) && !CleansTo(ws[0], w) {
          var j :| 0 <= j < |tail| && CleansTo(tail[j], w);
          assert ws[j + 1] == tail[j];
        }
        if exists k :: 0 <= k < |ws| && CleansTo(ws[k], w) {
          var k :| 0 <= k < |ws| && CleansTo(ws[k], w);
          if k > 0 {
            assert tail[k - 1] == ws[k];
          }
        }
      }
    }
  }

  lemma CleanWordsStep(ws: seq<string>)
    requires ws != []
    ensures forall w :: w in CleanWords(ws) <==> CleansTo(ws[0], w) || w in CleanWords(ws[1..])
  {
  }

  /** `_normalize_purpose_values`: a list's elements or the comma-separated
      parts of `str(value)`, stripped, lower-cased, blanks dropped. */
  function NormalizePurpose(raw: Json): (ps: seq<string>)
    ensures forall k :: 0 <= k < |ps| ==> IsWord(ps[k])
    ensures raw.JNull? ==> ps == []
    ensures !raw.JNull? ==> forall w :: w in ps <==>
      exists k :: 0 <= k < |PurposeParts(raw)| && CleansTo(PurposeParts(raw)[k], w)
  {
    if raw.JNull? then []
    else
      CleanWordsMembers(PurposeParts(raw));
      CleanWords(PurposeParts(raw))
  }

  function AsJsonStrings(ws: seq<string>): (r: seq<Json>)
    ensures |r| == |ws| && forall k :: 0 <= k < |ws| ==> r[k] == JStr(ws[k])
  {
    seq(|ws|, k requires 0 <= k < |ws| => JStr(ws[k]))
  }

  /** Words that are already clean pass through unchanged. */
  lemma {:induction false} CleanWordsFixed(ws: seq<string>)
    requires forall k :: 0 <= k < |ws| ==> IsWord(ws[k])
    ensures CleanWords(ws) == ws
  {
    if ws != [] {
      CleanWordFixed(ws[0]);
      CleanWordsFixed(ws[1..]);
    }
  }

  lemma CleanWordFixed(w: string)
    requires IsWord(w)
    ensures !Blank(w) && CleanWord(w) == w
  {
    StripPadding([], w, []);
    assert [] + w + [] == w;
    LowerFixed(w);
  }

  /** Normalising is idempotent: the normalised list, given back as a list of
      strings, normalises to itself. */
  lemma NormalizeIdempotent(raw: Json)
    ensures NormalizePurpose(JArr(AsJsonStrings(NormalizePurpose(raw)))) == NormalizePurpose(raw)
  {
    var ps := NormalizePurpose(raw);
    assert StrEach(AsJsonStrings(ps)) == ps;
    CleanWordsFixed(ps);
  }

  /** A comma-separated text normalises like the list of its parts. */
  lemma NormalizeTextAsList(s: string)
    ensures NormalizePurpose(JStr(s)) == NormalizePurpose(JArr(AsJsonStrings(Split(s, ','))))
  {
    assert StrEach(AsJsonStrings(Split(s, ','))) == Split(s, ',');
  }
}

=== FILE: json.dfy ===
/** The loosely typed values the services receive (decoded JSON catalogue
    items, JSON request bodies), with the Python operations the code applies
    to them: `dict.get`, truthiness and `or`, `str()`, `float()` and `int()`. */
module Json {
  import opened Prelude
  import opened PyText
  import opened PyNum

  /** A decoded JSON value, keeping Python's distinction between `int` and
      `float`. A float carries the text Python's `str()` produces for it,
      which this model takes as given rather than computing. An object keeps
      its bindings in order; a decoded object has distinct keys. */
  datatype Json =
    | JNull
    | JBool(b: bool)
    | JInt(i: int)
    | JFloat(f: real, text: string)
    | JStr(s: string)
    | JArr(items: seq<Json>)
    | JObj(fields: seq<(string, Json)>)

  /** Python's `d.get(key)`: the value bound to `key`, or None when unbound. */
  function Get(d: Json, key: string): (v: Json)
    requires d.JObj?
    ensures v == JNull || exists i :: 0 <= i < |d.fields| && d.fields[i] == (key, v)
    ensures (exists i :: 0 <= i < |d.fields| && d.fields[i].0 == key) || v == JNull
    ensures v == JNull || v < d
  {
    Lookup(d.fields, key)
  }

  /** The first binding of `key` in `fs`. */
  function Lookup(fs: seq<(string, Json)>, key: string): (v: Json)
    ensures v == JNull || exists i :: 0 <= i < |fs| && fs[i] == (key, v)
    ensures (exists i :: 0 <= i < |fs| && fs[i].0 == key) || v == JNull
  {
    if fs == [] then JNull
    else if fs[0].0 == key then fs[0].1
    else Lookup(fs[1..], key)
  }

  /** Looking a key up in an object that starts with a binding: that binding
      answers for its own key, the rest of the object for any other. */
  lemma GetCons(k: string, x: Json, rest: seq<(string, Json)>, key: string)
    ensures Get(JObj([(k, x)] + rest), key) == if k == key then x else Get(JObj(rest), key)
  {
    assert ([(k, x)] + rest)[1..] == rest;
  }

  /** `d.get` on objects written out with one, two or three bindings. */
  lemma GetOne(k1: string, x1: Json, key: string)
    ensures Get(JObj([(k1, x1)]), key) == if k1 == key then x1 else JNull
  {
    GetCons(k1, x1, [], key);
    assert [(k1, x1)] + [] == [(k1, x1)];
  }

  lemma GetTwo(k1: string, x1: Json, k2: string, x2: Json, key: string)
    ensures Get(JObj([(k1, x1), (k2, x2)]), key) ==
      if k1 == key then x1 else if k2 == key then x2 else JNull
  {
    GetCons(k1, x1, [(k2, x2)], key);
    assert [(k1, x1)] + [(k2, x2)] == [(k1, x1), (k2, x2)];
    GetOne(k2, x2, key);
  }

  lemma GetThree(k1: string, x1: Json, k2: string, x2: Json, k3: string, x3: Json, key: string)
    ensures Get(JObj([(k1, x1), (k2, x2), (k3, x3)]), key) ==
      if k1 == key then x1 else if k2 == key then x2 else if k3 == key then x3 else JNull
  {
    GetCons(k1, x1, [(k2, x2), (k3, x3)], key);
    assert [(k1, x1)] + [(k2, x2), (k3, x3)] == [(k1, x1), (k2, x2), (k3, x3)];
    GetTwo(k2, x2, k3, x3, key);
  }

  /** Python truthiness: None, False, zero, and empty strings, lists and dicts are falsy. */
  predicate Truthy(v: Json) {
    match v
    case JNull => false
    case JBool(b) => b
    case JInt(i) => i != 0
    case JFloat(f, _) => f != 0.0
    case JStr(s) => s != []
    case JArr(xs) => xs != []
    case JObj(fs) => fs != []
  }

  /** Python's `a or b`: the first operand if it is truthy, otherwise the
      second one, whatever it is (so `0 or None` is None). */
  function Or(a: Json, b: Json): (r: Json)
    ensures Truthy(r) <==> Truthy(a) || Truthy(b)
    ensures r == a || r == b
  {
    if Truthy(a) then a else b
  }

  /** Python's `str(v)`: a string is itself, everything else its `repr`. */
  function Str(v: Json): string {
    if v.JStr? then v.s else Repr(v)
  }

  /** Python's `repr(v)` for the JSON-shaped values. */
  function Repr(v: Json): string
    decreases v
  {
    match v
    case JNull => "None"
    case JBool(b) => if b then "True" else "False"
    case JInt(i) => IntToStr(i)
    case JFloat(_, t) => t
    case JStr(s) => QuoteRepr(s)
    case JArr(xs) =>
      "[" + Join(seq(|xs|, k requires 0 <= k < |xs| => Repr(xs[k])), ", ") + "]"
    case JObj(fs) =>
      "{" + Join(seq(|fs|, k requires 0 <= k < |fs| => QuoteRepr(fs[k].0) + ": " + Repr(fs[k].1)), ", ") + "}"
  }

  /** `repr` of a string: single quotes unless the text holds a single quote
      and no double quote; backslash, the chosen quote, newline, carriage
      return and tab are escaped. */
  function QuoteRepr(s: string): string {
    var q := if '\'' in s && '"' !in s then '"' else '\'';
    [q] + Escape(s, q) + [q]
  }

  function Escape(s: string, q: char): string {
    if s == [] then [] else EscapeChar(s[0], q) + Escape(s[1..], q)
  }

  function EscapeChar(c: char, q: char): string {
    if c == '\\' then "\\\\"
    else if c == q then ['\\', q]
    else if c == '\n' then "\\n"
    else if c == '\r' then "\\r"
    else if c == '\t' then "\\t"
    else [c]
  }

  /** Python's `int(f)` for a float: truncation toward zero. */
  function Trunc(f: real): (n: int)
    ensures 0.0 <= f ==> 0 <= n && n as real <= f < n as real + 1.0
    ensures f < 0.0 ==> n <= 0 && n as real - 1.0 < f <= n as real
  {
    if f >= 0.0 then f.Floor else -((-f).Floor)
  }

  /** Python's `float(v)`: numbers and booleans convert, strings are parsed
      (`ValueError` when they do not parse), anything else is a `TypeError`. */
  function ToFloat(v: Json): (r: Py<real>)
    ensures r.Raise? ==> (r.exc == ValueError <==> v.JStr?)
    ensures r.Raise? ==> r.exc != AttributeError
    ensures v.JStr? ==> (r.Ok? <==> ParseFloat(v.s).Some?)
  {
    match v
    case JBool(b) => Ok(if b then 1.0 else 0.0)
    case JInt(i) => Ok(i as real)
    case JFloat(f, _) => Ok(f)
    case JStr(s) => ParsedOr(ParseFloat(s))
    case _ => Raise(TypeError)
  }

  /** A parsed text, or the `ValueError` of a text that does not parse. */
  function ParsedOr<T>(o: Option<T>): (r: Py<T>)
    ensures r.Ok? <==> o.Some?
    ensures r.Ok? ==> r.value == o.value
    ensures r.Raise? ==> r.exc == ValueError
  {
    match o
    case Some(x) => Ok(x)
    case None => Raise(ValueError)
  }

  /** Python's `int(v)`: floats truncate, booleans are 0 and 1, strings are
      parsed (`ValueError` when they do not parse), anything else is a `TypeError`. */
  function ToInt(v: Json): (r: Py<int>)
    ensures r.Raise? ==> (r.exc == ValueError <==> v.JStr?)
    ensures r.Raise? ==> r.exc != AttributeError
    ensures v.JStr? ==> (r.Ok? <==> ParseInt(v.s).Some?)
  {
    match v
    case JBool(b) => Ok(if b then 1 else 0)
    case JInt(i) => Ok(i)
    case JFloat(f, _) => Ok(Trunc(f))
    case JStr(s) => ParsedOr(ParseInt(s))
    case _ => Raise(TypeError)
  }

  /** `int(v) if v is not None else None` with `TypeError`/`ValueError`
      caught and turned into None. */
  function IntOrNone(v: Json): (r: Option<int>)
    ensures v.JNull? ==> r.None?
    ensures r.Some? <==> ToInt(v).Ok?
  {
    match ToInt(v)
    case Ok(n) => Some(n)
    case Raise(_) => None
  }

  /** `str(int_value)` is the decimal rendering, and `int()` reads it back. */
  lemma StrOfInt(i: int)
    ensures Str(JInt(i)) == IntToStr(i)
    ensures ToInt(JStr(Str(JInt(i)))) == Ok(i)
  {
    assert Str(JInt(i)) == IntToStr(i);
    ParseIntRoundTrip(i);
  }
}

=== FILE: nearest.dfy ===
/** Turning catalogue items into parking records and answering the
    nearest-parking query (`_build_parking_response` and
    `get_nearest_parking` in parser/main.py). The catalogue answers and
    the great-circle distance are given to the model rather than computed. */
module Nearest {
  import opened Prelude
  import opened PyText
  import opened PyNum
  import opened Json
  import opened Config
  import opened Tariff
  import opened Extract

  const AllowedPurposes: set<string> := {"car"}
  const ExcludedPurposes: set<string> := {"disabled", "invalid", "resident", "residents"}
  const AccessKeywords: seq<string> := ["public", "обществен"]
  const UnnamedParking: string := "Название не указано"

  /** The distance in km between two (latitude, longitude) points. */
  type Distance = (real, real, real, real) -> real

  /** The part of the service settings the selection reads. */
  datatype Settings = Settings(centerLat: real, centerLon: real, autoPrice: bool)

  /** One parking record of the answer. */
  datatype Parking = Parking(
    name: Json,
    lat: real,
    lon: real,
    purpose: Json,
    capacity: Option<int>,
    isPaid: Json,
    priceComment: Option<Json>,
    pricePerHour: Option<int>,
    distanceToRequestM: real,
    distanceToCenterKm: real,
    totalSpaces: Option<int>,
    freeSpaces: Option<int>)

  /** An admitted item: its unrounded distance to the query point, its
      record and its catalogue id. */
  datatype Candidate = Candidate(distanceKm: real, parking: Parking, id: Json)

  // ----- the admission filter -----

  /** Some word of `ps` lies in `words` (Python's `any(w in words for w in ps)`). */
  function AnyIn(ps: seq<string>, words: set<string>): (b: bool)
    ensures b <==> exists k :: 0 <= k < |ps| && ps[k] in words
  {
    if ps == [] then false
    else if ps[0] in words then true
    else
      var b := AnyIn(ps[1..], words);
      assert forall k :: 1 <= k < |ps| ==> ps[k] == ps[1..][k - 1];
      b
  }

  /** A purpose list the service accepts: not empty, no excluded purpose,
      and an allowed one among them. */
  predicate PurposeAdmitted(ps: seq<string>) {
    && ps != []
    && (forall k :: 0 <= k < |ps| ==> ps[k] !in ExcludedPurposes)
    && (exists k :: 0 <= k < |ps| && ps[k] in AllowedPurposes)
  }

  /** The purpose checks in their order of evaluation. */
  function PurposeCheck(ps: seq<string>): (ok: bool)
    ensures ok <==> PurposeAdmitted(ps)
  {
    if ps == [] then false
    else if AnyIn(ps, ExcludedPurposes) then false
    else !(AllowedPurposes != {} && !AnyIn(ps, AllowedPurposes))
  }

  /** `str(item.get("access") or "").lower()`. */
  function AccessText(item: Json): string
    requires item.JObj?
  {
    Lower(Str(Or(Get(item, "access"), JStr(""))))
  }

  /** Some keyword of `kws` occurs in `text`. */
  function AnyKeyword(text: string, kws: seq<string>): (b: bool)
    ensures b <==> exists k, i :: 0 <= k < |kws| && OccursAt(text, kws[k], i)
  {
    if kws == [] then false
    else if Contains(text, kws[0]) then true
    else
      var b := AnyKeyword(text, kws[1..]);
      assert forall k :: 1 <= k < |kws| ==> kws[k] == kws[1..][k - 1];
      b
  }

  /** Everything the filter checks before it looks for coordinates. */
  ghost predicate PassesFilters(item: Json)
    requires item.JObj?
  {
    && PurposeAdmitted(NormalizePurpose(Get(item, "purpose")))
    && Truthy(Get(item, "is_paid"))
    && exists k, i :: 0 <= k < |AccessKeywords| && OccursAt(AccessText(item), AccessKeywords[k], i)
  }

  /** The three checks in the order the filter makes them. */
  function Filter(item: Json): (ok: bool)
    requires item.JObj?
    ensures ok <==> PassesFilters(item)
  {
    && PurposeCheck(NormalizePurpose(Get(item, "purpose")))
    && Truthy(Get(item, "is_paid"))
    && AnyKeyword(AccessText(item), AccessKeywords)
  }

  /** Which `_extract_price` a record is built with: the code as written,
      which raises for a truthy non-dict `parking` once no comment is found,
      or the corrected reading that takes such a `parking` as `{}`. */
  datatype PriceRule = AsWritten | Corrected

  /** The price step of an item with coordinates raises under `rule`. */
  predicate PriceRaises(rule: PriceRule, item: Json)
    requires item.JObj?
  {
    && rule.AsWritten?
    && !Truthy(PriceComment(item, Get(item, "parking_comment")))
    && Truthy(Get(item, "parking"))
    && !Get(item, "parking").JObj?
  }

  /** An item that yields a parking record. */
  ghost predicate Admitted(rule: PriceRule, item: Json) {
    && item.JObj?
    && PassesFilters(item)
    && ExtractCoordinates(item).Ok?
    && ExtractCoordinates(item).value.Some?
    && !PriceRaises(rule, item)
  }

  // ----- assembling the record -----

  /** `", ".join(str(v) for v in purpose)` for a list, the value itself otherwise. */
  function PurposeDisplay(raw: Json): (r: Json)
    ensures !raw.JArr? ==> r == raw
    ensures raw.JArr? ==> r.JStr?
  {
    if raw.JArr? then JStr(Join(StrEach(raw.items), ", ")) else raw
  }

  /** The record of an item that passed every check, found at (lat, lon). */
  function Assemble(req: (real, real), item: Json, lat: real, lon: real, settings: Settings, dist: Distance): (c: Candidate)
    requires item.JObj?
    ensures c.distanceKm == dist(req.0, req.1, lat, lon)
    ensures c.id == Get(item, "id") && c.parking.lat == lat && c.parking.lon == lon
    ensures settings.autoPrice ==>
      && c.parking.priceComment.None?
      && c.parking.pricePerHour == Some(EstimatePriceByDistance(dist(settings.centerLat, settings.centerLon, lat, lon)))
    ensures !settings.autoPrice ==>
      c.parking.pricePerHour.None? && c.parking.priceComment == Some(ExtractPrice(item, Get(item, "parking_comment")))
    ensures c.parking.priceComment.Some? ==> Truthy(c.parking.priceComment.value)
    ensures Truthy(c.parking.name)
    ensures c.parking.totalSpaces.Some? ==> c.parking.capacity == c.parking.totalSpaces
  {
    var dReq := dist(req.0, req.1, lat, lon);
    var dCenter := dist(settings.centerLat, settings.centerLon, lat, lon);
    var comment := ExtractPrice(item, Get(item, "parking_comment"));
    var spaces := ExtractSpaces(item);
    var perHour := if settings.autoPrice then Some(EstimatePriceByDistance(dCenter)) else None;
    var shown := if settings.autoPrice then None else Some(comment);
    var capacity := if spaces.0.Some? then spaces.0 else IntOrNone(Get(item, "capacity"));
    var parking := Parking(
      Or(Get(item, "name"), JStr(UnnamedParking)),
      lat, lon,
      PurposeDisplay(Get(item, "purpose")),
      capacity,
      Get(item, "is_paid"),
      shown,
      perHour,
      RoundTo(dReq * 1000.0, 100),
      RoundTo(dCenter, 1000),
      spaces.0,
      spaces.1);
    Candidate(dReq, parking, Get(item, "id"))
  }

  /** `_build_parking_response`: None for an item the filter drops, the
      record otherwise. A non-dict item raises `AttributeError`; so does an
      item that passed the other checks and has a truthy non-dict coordinate
      candidate, or, under the code as written, coordinates but no comment
      and a truthy non-dict `parking`. The price is computed even when the
      hourly rate replaces it. */
  function BuildParking(rule: PriceRule, req: (real, real), item: Json, settings: Settings, dist: Distance)
    : (r: Py<Option<Candidate>>)
    ensures r.Raise? ==> r.exc == AttributeError
    ensures r.Raise? <==>
      || !item.JObj?
      || (&& PassesFilters(item)
          && (|| ExtractCoordinates(item).Raise?
              || (ExtractCoordinates(item).value.Some? && PriceRaises(rule, item))))
    ensures r.Ok? && r.value.Some? <==> Admitted(rule, item)
    ensures r.Ok? && r.value.Some? ==>
      r.value.value == Assemble(req, item, ExtractCoordinates(item).value.value.0,
                                ExtractCoordinates(item).value.value.1, settings, dist)
    ensures r.Ok? && r.value.Some? && rule.AsWritten? ==>
      ExtractPriceAsWritten(item, Get(item, "parking_comment")) == Ok(ExtractPrice(item, Get(item, "parking_comment")))
  {
    if !item.JObj? then Raise(AttributeError)
    else if !Filter(item) then Ok(None)
    else match ExtractCoordinates(item)
      case Raise(e) => Raise(e)
      case Ok(None) => Ok(None)
      case Ok(Some(p)) =>
        if PriceRaises(rule, item) then Raise(AttributeError)
        else
          assert rule.AsWritten? ==>
            ExtractPriceAsWritten(item, Get(item, "parking_comment")) == Ok(ExtractPrice(item, Get(item, "parking_comment"))) by {
            if rule.AsWritten? {
              PriceAgreesWhenNoRaise(item, Get(item, "parking_comment"));
            }
          }
          Ok(Some(Assemble(req, item, p.0, p.1, settings, dist)))
  }

  /** Wherever the code as written builds without raising, the corrected
      reading builds the same; the corrected reading raises only where the
      code as written does. */
  lemma BuildAgrees(req: (real, real), item: Json, settings: Settings, dist: Distance)
    ensures BuildParking(AsWritten, req, item, settings, dist).Ok? ==>
      BuildParking(Corrected, req, item, settings, dist) == BuildParking(AsWritten, req, item, settings, dist)
    ensures BuildParking(Corrected, req, item, settings, dist).Raise? ==> BuildParking(AsWritten, req, item, settings, dist).Raise?
  {
  }

  /** The outcome of building each item, in catalogue order. */
  function BuildEach(rule: PriceRule, req: (real, real), items: seq<Json>, settings: Settings, dist: Distance)
    : (rs: seq<Py<Option<Candidate>>>)
    ensures |rs| == |items|
    ensures forall k :: 0 <= k < |items| ==> rs[k] == BuildParking(rule, req, items[k], settings, dist)
  {
    seq(|items|, k requires 0 <= k < |items| => BuildParking(rule, req, items[k], settings, dist))
  }

  /** The loop over the outcomes: the built records in order, or the first
      exception. */
  function Collect(rs: seq<Py<Option<Candidate>>>): (r: Py<seq<Candidate>>)
    ensures r.Ok? <==> forall k :: 0 <= k < |rs| ==> rs[k].Ok?
    ensures r.Ok? ==> |r.value| <= |rs|
  {
    if rs == [] then Ok([])
    else
      var rest := Collect(rs[1..]);
      assert forall k :: 1 <= k < |rs| ==> rs[k] == rs[1..][k - 1];
      if rs[0].Raise? then Raise(rs[0].exc)
      else if rest.Raise? then Raise(rest.exc)
      else Ok(Keep(rs[0].value) + rest.value)
  }

  /** The record of an item, as a list of none or one. */
  function Keep(c: Option<Candidate>): seq<Candidate> {
    if c.Some? then [c.value] else []
  }

  /** The records of the admitted items, in catalogue order; the first item
      that raises aborts the whole list. */
  function Enrich(rule: PriceRule, req: (real, real), items: seq<Json>, settings: Settings, dist: Distance): (r: Py<seq<Candidate>>)
    ensures r.Ok? <==> forall k :: 0 <= k < |items| ==> BuildParking(rule, req, items[k], settings, dist).Ok?
    ensures r.Ok? ==> |r.value| <= |items|
  {
    Collect(BuildEach(rule, req, items, settings, dist))
  }

  /** Nothing is collected exactly when every outcome is "dropped". */
  lemma {:induction false} CollectEmpty(rs: seq<Py<Option<Candidate>>>)
    requires Collect(rs).Ok?
    ensures Collect(rs).value == [] <==> forall k :: 0 <= k < |rs| ==> rs[k] == Ok(None)
  {
    if rs != [] {
      assert forall k :: 1 <= k < |rs| ==> rs[k] == rs[1..][k - 1];
      CollectEmpty(rs[1..]);
    }
  }

  /** Every collected record is the outcome of some item. */
  lemma {:induction false} CollectSound(rs: seq<Py<Option<Candidate>>>, c: Candidate)
    requires Collect(rs).Ok? && c in Collect(rs).value
    ensures exists k :: 0 <= k < |rs| && rs[k] == Ok(Some(c))
  {
    if rs[0] != Ok(Some(c)) {
      assert c in Collect(rs[1..]).value;
      CollectSound(rs[1..], c);
      var k :| 0 <= k < |rs[1..]| && rs[1..][k] == Ok(Some(c));
      assert rs[k + 1] == Ok(Some(c));
    }
  }

  /** Collecting two runs of outcomes one after the other. */
  lemma {:induction false} CollectAppend(a: seq<Py<Option<Candidate>>>, b: seq<Py<Option<Candidate>>>)
    ensures Collect(a + b) ==
      match Collect(a)
      case Raise(e) => Raise(e)
      case Ok(x) => (match Collect(b)
                     case Raise(e) => Raise(e)
                     case Ok(y) => Ok(x + y))
  {
    if a == [] {
      assert a + b == b;
      if Collect(b).Ok? {
        assert [] + Collect(b).value == Collect(b).value;
      }
    } else {
      assert (a + b)[0] == a[0];
      assert (a + b)[1..] == a[1..] + b;
      CollectAppend(a[1..], b);
      var x := Collect(a[1..]);
      var y := Collect(b);
      if a[0].Ok? && x.Ok? && y.Ok? {
        assert Keep(a[0].value) + (x.value + y.value) == (Keep(a[0].value) + x.value) + y.value;
      }
    }
  }

  /** Nothing is built exactly when no item is admitted. */
  lemma EnrichEmpty(rule: PriceRule, req: (real, real), items: seq<Json>, settings: Settings, dist: Distance)
    requires Enrich(rule, req, items, settings, dist).Ok?
    ensures Enrich(rule, req, items, settings, dist).value == [] <==> forall k :: 0 <= k < |items| ==> !Admitted(rule, items[k])
  {
    var rs := BuildEach(rule, req, items, settings, dist);
    CollectEmpty(rs);
    assert forall k :: 0 <= k < |items| ==> (rs[k] == Ok(None) <==> !Admitted(rule, items[k]));
  }

  /** Every record built comes from an admitted item. */
  lemma EnrichSound(rule: PriceRule, req: (real, real), items: seq<Json>, settings: Settings, dist: Distance, c: Candidate)
    requires Enrich(rule, req, items, settings, dist).Ok?
    requires c in Enrich(rule, req, items, settings, dist).value
    ensures exists k :: 0 <= k < |items| && Admitted(rule, items[k]) && BuildParking(rule, req, items[k], settings, dist) == Ok(Some(c))
  {
    var rs := BuildEach(rule, req, items, settings, dist);
    CollectSound(rs, c);
    var k :| 0 <= k < |rs| && rs[k] == Ok(Some(c));
    assert Admitted(rule, items[k]);
  }

  /** Building the records of two runs of items one after the other. */
  lemma EnrichAppend(rule: PriceRule, req: (real, real), a: seq<Json>, b: seq<Json>, settings: Settings, dist: Distance)
    ensures Enrich(rule, req, a + b, settings, dist) ==
      match Enrich(rule, req, a, settings, dist)
      case Raise(e) => Raise(e)
      case Ok(x) => (match Enrich(rule, req, b, settings, dist)
                     case Raise(e) => Raise(e)
                     case Ok(y) => Ok(x + y))
  {
    BuildEachAppend(rule, req, a, b, settings, dist);
    CollectAppend(BuildEach(rule, req, a, settings, dist), BuildEach(rule, req, b, settings, dist));
  }

  /** Wherever the service as written collects its records without raising,
      the corrected reading collects the very same records. */
  lemma EnrichAgrees(req: (real, real), items: seq<Json>, settings: Settings, dist: Distance)
    requires Enrich(AsWritten, req, items, settings, dist).Ok?
    ensures Enrich(Corrected, req, items, settings, dist) == Enrich(AsWritten, req, items, settings, dist)
  {
    var x, y := BuildEach(AsWritten, req, items, settings, dist), BuildEach(Corrected, req, items, settings, dist);
    forall k | 0 <= k < |items| ensures y[k] == x[k] {
      BuildAgrees(req, items[k], settings, dist);
    }
    assert x == y;
  }

  lemma BuildEachAppend(rule: PriceRule, req: (real, real), a: seq<Json>, b: seq<Json>, settings: Settings, dist: Distance)
    ensures BuildEach(rule, req, a + b, settings, dist) == BuildEach(rule, req, a, settings, dist) + BuildEach(rule, req, b, settings, dist)
  {
    var l, x, y := BuildEach(rule, req, a + b, settings, dist), BuildEach(rule, req, a, settings, dist), BuildEach(rule, req, b, settings, dist);
    forall k | 0 <= k < |l| ensures l[k] == (x + y)[k] {
      if k < |a| { assert (a + b)[k] == a[k]; } else { assert (a + b)[k] == b[k - |a|]; }
    }
  }

  // ----- choosing the nearest -----

  /** `k` is where a stable sort by distance would put first: nothing is
      nearer, and every earlier record is strictly farther. */
  predicate IsFirstNearest(cs: seq<Candidate>, k: int) {
    && 0 <= k < |cs|
    && (forall j :: 0 <= j < |cs| ==> cs[k].distanceKm <= cs[j].distanceKm)
    && (forall j :: 0 <= j < k ==> cs[k].distanceKm < cs[j].distanceKm)
  }

  /** The stable sort's first element is unique. */
  lemma FirstNearestUnique(cs: seq<Candidate>, k1: int, k2: int)
    requires IsFirstNearest(cs, k1) && IsFirstNearest(cs, k2)
    ensures k1 == k2
  {
    assert cs[k1].distanceKm == cs[k2].distanceKm;
  }

  /** `sort(key=distance)[0]`: one pass keeping the first strict minimum. */
  method PickNearest(cs: seq<Candidate>) returns (k: nat)
    requires cs != []
    ensures IsFirstNearest(cs, k)
  {
    k := 0;
    var i := 1;
    while i < |cs|
      invariant 1 <= i <= |cs| && k < i
      invariant forall j :: 0 <= j < i ==> cs[k].distanceKm <= cs[j].distanceKm
      invariant forall j :: 0 <= j < k ==> cs[k].distanceKm < cs[j].distanceKm
    {
      if cs[i].distanceKm < cs[k].distanceKm {
        k := i;
      }
      i := i + 1;
    }
  }

  // ----- the endpoint -----

  /** What the catalogue search returned: a failed request (with its error
      text), or the items and the total it reported. */
  datatype SearchOutcome = SearchFailed(message: string) | Found(items: seq<Json>, total: Option<int>)

  /** What the by-id lookup of the chosen item returned: a failed request,
      or the first item of its answer (`{}` when there was none). */
  datatype FetchOutcome = FetchFailed | Fetched(item: Json)

  datatype Reply = NearestReply(totalFound: int, parking: Parking) | HttpError(status: int, detail: string)

  const QueryName: string := "Query parameter 'coordinates'"
  const UpstreamFailure: string := "Ошибка обращения к 2GIS: "
  const NothingFound: string := "Парковки в заданном радиусе не найдены"
  const InternalError: string := "Internal Server Error"

  /** `_fetch_parking_comment` after the request: nothing for a failed request
      or a falsy answer, else the comment of the answered item for that id. */
  function FetchComment(fetched: FetchOutcome, id: Json): (r: Py<Option<string>>)
    ensures r.Raise? <==> fetched.Fetched? && Truthy(fetched.item) && !fetched.item.JObj?
    ensures r.Ok? && r.value.Some? ==> r.value.value != [] && IsStripped(r.value.value)
    ensures fetched.FetchFailed? || !Truthy(fetched.item) ==> r == Ok(None)
    ensures fetched.Fetched? && Truthy(fetched.item) && fetched.item.JObj? ==>
      r == Ok(ExtractParkingComment(fetched.item, id))
  {
    match fetched
    case FetchFailed => Ok(None)
    case Fetched(item) =>
      if !Truthy(item) then Ok(None)
      else if !item.JObj? then Raise(AttributeError)
      else Ok(ExtractParkingComment(item, id))
  }

  /** The records agree on everything but the tariff comment. */
  predicate SameButComment(p: Parking, q: Parking) {
    p == q.(priceComment := p.priceComment)
  }

  /** The chosen record after the by-id refresh: only for a truthy id with
      prices not estimated, and only when the lookup finds a comment, which
      then replaces the tariff comment. */
  function Refresh(c: Candidate, fetched: FetchOutcome, settings: Settings): (r: Py<Parking>)
    ensures r.Raise? <==> !settings.autoPrice && Truthy(c.id) && FetchComment(fetched, c.id).Raise?
    ensures r.Ok? ==> SameButComment(r.value, c.parking)
    ensures settings.autoPrice || !Truthy(c.id) ==> r == Ok(c.parking)
    ensures r.Ok? && r.value != c.parking ==>
      && FetchComment(fetched, c.id).Ok? && FetchComment(fetched, c.id).value.Some?
      && r.value.priceComment == Some(JStr(FetchComment(fetched, c.id).value.value))
    ensures !settings.autoPrice && Truthy(c.id) && FetchComment(fetched, c.id).Ok? ==>
      r == Ok(match FetchComment(fetched, c.id).value
              case Some(t) => c.parking.(priceComment := Some(JStr(t)))
              case None => c.parking)
  {
    if settings.autoPrice || !Truthy(c.id) then Ok(c.parking)
    else match FetchComment(fetched, c.id)
      case Raise(e) => Raise(e)
      case Ok(None) => Ok(c.parking)
      case Ok(Some(t)) => Ok(c.parking.(priceComment := Some(JStr(t))))
  }

  /** What the endpoint promises once the query point is known and the
      search has answered with `items`: 500 exactly when building a record
      or refreshing the chosen one raises, 404 exactly when no item is
      admitted, and otherwise the refreshed first nearest record with the
      reported total. */
  ghost predicate AnswersWith(rule: PriceRule, reply: Reply, req: (real, real), items: seq<Json>, total: Option<int>,
                              fetched: FetchOutcome, settings: Settings, dist: Distance)
  {
    var built := Enrich(rule, req, items, settings, dist);
    && (reply == HttpError(500, InternalError) <==>
          built.Raise? || exists k :: IsFirstNearest(built.value, k) && Refresh(built.value[k], fetched, settings).Raise?)
    && (built.Ok? ==> (reply == HttpError(404, NothingFound) <==> forall k :: 0 <= k < |items| ==> !Admitted(rule, items[k])))
    && (reply.NearestReply? ==>
          && built.Ok?
          && reply.totalFound == total.GetOr(|items|)
          && exists k :: IsFirstNearest(built.value, k) && Refresh(built.value[k], fetched, settings) == Ok(reply.parking))
    && (reply.HttpError? ==> reply == HttpError(404, NothingFound) || reply == HttpError(500, InternalError))
    && (built.Ok? && built.value != [] &&
        (forall k :: IsFirstNearest(built.value, k) ==> !Refresh(built.value[k], fetched, settings).Raise?)
        ==> reply.NearestReply?)
  }

  /** The part of `get_nearest_parking` after the search: build, choose,
      refresh the comment. */
  method Answer(rule: PriceRule, req: (real, real), items: seq<Json>, total: Option<int>, fetched: FetchOutcome,
                settings: Settings, dist: Distance) returns (reply: Reply)
    ensures AnswersWith(rule, reply, req, items, total, fetched, settings, dist)
  {
    var built := Enrich(rule, req, items, settings, dist);
    if built.Raise? {
      return HttpError(500, InternalError);
    }
    var cs := built.value;
    EnrichEmpty(rule, req, items, settings, dist);
    if cs == [] {
      return HttpError(404, NothingFound);
    }
    var k := PickNearest(cs);
    var refreshed := Refresh(cs[k], fetched, settings);
    forall j | IsFirstNearest(cs, j) ensures j == k {
      FirstNearestUnique(cs, j, k);
    }
    if refreshed.Raise? {
      return HttpError(500, InternalError);
    }
    reply := NearestReply(total.GetOr(|items|), refreshed.value);
  }

  /** `get_nearest_parking` with the catalogue answers given: 422 for bad
      coordinates, 502 when the search fails, and otherwise the answer for
      the items found around the parsed point. */
  method GetNearestParking(rule: PriceRule, coordinates: string, search: SearchOutcome, fetched: FetchOutcome,
                           settings: Settings, dist: Distance) returns (reply: Reply)
    ensures ParseCoordinates(coordinates).CoordFailure? ==>
      reply == HttpError(422, CoordErrorMessage(QueryName, ParseCoordinates(coordinates).error))
    ensures ParseCoordinates(coordinates).Coords? && search.SearchFailed? ==>
      reply == HttpError(502, UpstreamFailure + search.message)
    ensures ParseCoordinates(coordinates).Coords? && search.Found? ==>
      AnswersWith(rule, reply, (ParseCoordinates(coordinates).lat, ParseCoordinates(coordinates).lon),
                  search.items, search.total, fetched, settings, dist)
    ensures reply.NearestReply? ==> ParseCoordinates(coordinates).Coords? && search.Found?
  {
    var parsed := ParseCoordinates(coordinates);
    if parsed.CoordFailure? {
      return HttpError(422, CoordErrorMessage(QueryName, parsed.error));
    }
    if search.SearchFailed? {
      return HttpError(502, UpstreamFailure + search.message);
    }
    reply := Answer(rule, (parsed.lat, parsed.lon), search.items, search.total, fetched, settings, dist);
  }
}

=== FILE: numbers.dfy ===
/** Python's numeric conversions on text: `str(int)`, `int(str)`,
    `float(str)` restricted to finite decimal spellings, and `round`. */
module PyNum {
  import opened Prelude
  import opened PyText

  predicate IsDigit(c: char) {
    '0' <= c <= '9'
  }

  predicate AllDigits(s: string) {
    forall i :: 0 <= i < |s| ==> IsDigit(s[i])
  }

  function DigitValue(c: char): nat
    requires IsDigit(c)
  {
    c as int - '0' as int
  }

  function DigitChar(d: nat): (c: char)
    requires d < 10
    ensures IsDigit(c) && DigitValue(c) == d
  {
    ('0' as int + d) as char
  }

  /** The value of a string of decimal digits, most significant first. */
  function DigitsValue(s: string): nat
    requires AllDigits(s)
  {
    if s == [] then 0 else DigitsValue(s[..|s| - 1]) * 10 + DigitValue(s[|s| - 1])
  }

  function NatToStr(n: nat): (s: string)
    ensures |s| >= 1 && AllDigits(s)
  {
    if n < 10 then [DigitChar(n)] else NatToStr(n / 10) + [DigitChar(n % 10)]
  }

  /** Python's `str(i)` for an `int`. */
  function IntToStr(i: int): (s: string)
    ensures |s| >= 1
  {
    if i < 0 then "-" + NatToStr(-i) else NatToStr(i)
  }

  /** Reading the decimal digits `NatToStr` writes gives the number back. */
  lemma {:induction false} NatToStrValue(n: nat)
    ensures DigitsValue(NatToStr(n)) == n
  {
    if n >= 10 {
      var s := NatToStr(n);
      NatToStrValue(n / 10);
      assert s[..|s| - 1] == NatToStr(n / 10);
    }
  }

  lemma NoSpaceIsStripped(s: string)
    requires forall i :: 0 <= i < |s| ==> !IsSpace(s[i])
    ensures Strip(s) == s
  {
    StripPadding([], s, []);
    assert [] + s + [] == s;
  }

  /** `str(i)` has no surrounding whitespace. */
  lemma IntToStrStripped(i: int)
    ensures Strip(IntToStr(i)) == IntToStr(i)
  {
    var s := IntToStr(i);
    var d := NatToStr(if i < 0 then -i else i);
    assert forall k :: 0 <= k < |d| ==> !IsSpace(d[k]) by {
      forall k | 0 <= k < |d| ensures !IsSpace(d[k]) {
        assert IsDigit(d[k]);
      }
    }
    assert forall k :: 0 <= k < |s| ==> !IsSpace(s[k]) by {
      forall k | 0 <= k < |s| ensures !IsSpace(s[k]) {
        if i < 0 {
          if k > 0 { assert s[k] == d[k - 1]; }
        } else {
          assert s[k] == d[k];
        }
      }
    }
    NoSpaceIsStripped(s);
  }

  /** Python's `int(s)` on a `str`: surrounding whitespace, an optional sign
      and one or more ASCII digits. Everything else is None, standing for
      `ValueError`; this includes the digit-group underscores and non-ASCII
      digits Python also reads. There is no limit on the number of digits,
      where Python refuses texts of more than 4300. */
  function ParseInt(s: string): (r: Option<int>)
    ensures r.Some? ==> !Blank(s)
  {
    ParseTrimmedInt(Strip(s))
  }

  function ParseTrimmedInt(t: string): Option<int> {
    if |t| > 0 && (t[0] == '+' || t[0] == '-') then
      var d := t[1..];
      if |d| > 0 && AllDigits(d) then Some(if t[0] == '-' then -(DigitsValue(d) as int) else DigitsValue(d)) else None
    else if |t| > 0 && AllDigits(t) then Some(DigitsValue(t))
    else None
  }

  /** `int(str(i)) == i`. */
  lemma ParseIntRoundTrip(i: int)
    ensures ParseInt(IntToStr(i)) == Some(i)
  {
    IntToStrStripped(i);
    TrimmedIntRoundTrip(i);
  }

  lemma TrimmedIntRoundTrip(i: int)
    ensures ParseTrimmedInt(IntToStr(i)) == Some(i)
  {
    var s := IntToStr(i);
    if i < 0 {
      NatToStrValue(-i);
      assert s[1..] == NatToStr(-i);
      assert s[0] == '-';
    } else {
      NatToStrValue(i);
      assert s[0] != '+' && s[0] != '-';
    }
  }

  function Pow10(n: nat): (p: nat)
    ensures p >= 1
  {
    if n == 0 then 1 else 10 * Pow10(n - 1)
  }

  /** `m * 10^e` for a possibly negative exponent. */
  function Scale(m: real, e: int): real {
    if e >= 0 then m * Pow10(e) as real else m / Pow10(-e) as real
  }

  /** Digits with at most one decimal point and at least one digit. */
  function ParseMantissa(m: string): Option<real> {
    if '.' in m then
      var i := IndexOf(m, '.');
      var whole := m[..i];
      var frac := m[i + 1..];
      if AllDigits(whole) && AllDigits(frac) && |whole| + |frac| > 0 then
        Some(DigitsValue(whole) as real + DigitsValue(frac) as real / Pow10(|frac|) as real)
      else None
    else if |m| > 0 && AllDigits(m) then Some(DigitsValue(m) as real)
    else None
  }

  /** An exponent: an optional sign and one or more digits. */
  function ParseExponent(x: string): Option<int> {
    if |x| > 0 && (x[0] == '+' || x[0] == '-') then
      if |x| > 1 && AllDigits(x[1..]) then
        Some(if x[0] == '-' then -(DigitsValue(x[1..]) as int) else DigitsValue(x[1..]))
      else None
    else if |x| > 0 && AllDigits(x) then Some(DigitsValue(x))
    else None
  }

  function ParseUnsignedFloat(t: string): Option<real> {
    var l := Lower(t);
    if 'e' in l then
      var i := IndexOf(l, 'e');
      match (ParseMantissa(t[..i]), ParseExponent(t[i + 1..]))
      case (Some(m), Some(e)) => Some(Scale(m, e))
      case _ => None
    else ParseMantissa(t)
  }

  /** Python's `float(s)` on a `str`, for finite decimal spellings: surrounding
      whitespace, an optional sign, digits with an optional decimal point, and
      an optional exponent. None stands for `ValueError`. */
  function ParseFloat(s: string): (r: Option<real>)
    ensures r.Some? ==> !Blank(s)
  {
    ParseTrimmedFloat(Strip(s))
  }

  function ParseTrimmedFloat(t: string): Option<real> {
    if |t| > 0 && (t[0] == '+' || t[0] == '-') then
      match ParseUnsignedFloat(t[1..])
      case Some(v) => Some(if t[0] == '-' then -v else v)
      case None => None
    else ParseUnsignedFloat(t)
  }

  /** `float()` strips its argument itself, so stripping first changes nothing. */
  lemma StripParseFloat(s: string)
    ensures ParseFloat(Strip(s)) == ParseFloat(s)
  {
    StripIdempotent(s);
  }

  /** A run of digits reads as the same number through `float`. */
  lemma UnsignedFloatOfDigits(d: string)
    requires d != [] && AllDigits(d)
    ensures ParseUnsignedFloat(d) == Some(DigitsValue(d) as real)
  {
    assert Lower(d) == d;
    assert 'e' !in d && '.' !in d;
  }

  /** `float` accepts every spelling `int` accepts, with the same value. */
  lemma ParseFloatExtendsParseInt(s: string)
    requires ParseInt(s).Some?
    ensures ParseFloat(s) == Some(ParseInt(s).value as real)
  {
    TrimmedFloatExtendsInt(Strip(s));
  }

  lemma TrimmedFloatExtendsInt(t: string)
    requires ParseTrimmedInt(t).Some?
    ensures ParseTrimmedFloat(t) == Some(ParseTrimmedInt(t).value as real)
  {
    if t[0] == '+' || t[0] == '-' {
      UnsignedFloatOfDigits(t[1..]);
    } else {
      UnsignedFloatOfDigits(t);
    }
  }

  /** `float(str(i)) == i`. */
  lemma ParseFloatOfIntToStr(i: int)
    ensures ParseFloat(IntToStr(i)) == Some(i as real)
  {
    ParseIntRoundTrip(i);
    ParseFloatExtendsParseInt(IntToStr(i));
  }

  /** Python's `round(y)`: the nearest integer, ties to the even one. */
  function RoundHalfEven(y: real): (n: int)
    ensures -0.5 <= y - n as real <= 0.5
    ensures (y - n as real == 0.5 || y - n as real == -0.5) ==> n % 2 == 0
  {
    var f := y.Floor;
    var frac := y - f as real;
    if frac < 0.5 then f
    else if frac > 0.5 then f + 1
    else if f % 2 == 0 then f
    else f + 1
  }

  /** Rounding to an integer never reverses the order of its arguments. */
  lemma RoundHalfEvenMonotone(x: real, y: real)
    requires x <= y
    ensures RoundHalfEven(x) <= RoundHalfEven(y)
  {
    assert x.Floor <= y.Floor;
  }

  lemma RoundHalfEvenOfInt(k: int)
    ensures RoundHalfEven(k as real) == k
  {
  }

  /** Python's `round(x, d)` with `scale == 10^d`, on the exact value of `x`. */
  function RoundTo(x: real, scale: nat): real
    requires scale > 0
  {
    RoundHalfEven(x * scale as real) as real / scale as real
  }

  /** Rounding to a fixed number of places is monotone. */
  lemma RoundToMonotone(x: real, y: real, scale: nat)
    requires scale > 0 && x <= y
    ensures RoundTo(x, scale) <= RoundTo(y, scale)
  {
    assert x * scale as real <= y * scale as real;
    RoundHalfEvenMonotone(x * scale as real, y * scale as real);
  }

  /** A value already on the grid of `1/scale` is left unchanged by rounding. */
  lemma RoundToGridPoint(x: real, scale: nat, k: int)
    requires scale > 0 && x * (scale as real) == k as real
    ensures RoundTo(x, scale) == x
  {
    RoundHalfEvenOfInt(k);
  }

  lemma RoundToGrid(k: int, scale: nat)
    requires scale > 0
    ensures RoundTo(k as real / scale as real, scale) == k as real / scale as real
  {
    RoundToGridPoint(k as real / scale as real, scale, k);
  }

  /** Rounding keeps a value inside any interval whose ends lie on the grid. */
  lemma RoundToWithin(x: real, scale: nat, lo: int, hi: int)
    requires scale > 0
    requires lo as real / scale as real <= x <= hi as real / scale as real
    ensures lo as real / scale as real <= RoundTo(x, scale) <= hi as real / scale as real
  {
    RoundToMonotone(lo as real / scale as real, x, scale);
    RoundToMonotone(x, hi as real / scale as real, scale);
    RoundToGrid(lo, scale);
    RoundToGrid(hi, scale);
  }
}

=== FILE: occupancy.dfy ===
/** The occupancy estimate of EPO/main.py: the five-level classification,
    the six time-of-day bands, and the corrections and clamp applied to the
    weighted combination of factors. The combination itself (exponentials
    and a logarithm) is given to the model as a number. */
module Occupancy {
  import opened PyNum

  datatype Level = VeryLow | Low | Medium | High | VeryHigh

  function LevelLabel(l: Level): string {
    match l
    case VeryLow => "очень низкая"
    case Low => "низкая"
    case Medium => "средняя"
    case High => "высокая"
    case VeryHigh => "очень высокая"
  }

  /** The position of a level in the order from emptiest to fullest. */
  function Rank(l: Level): nat {
    match l
    case VeryLow => 0
    case Low => 1
    case Medium => 2
    case High => 3
    case VeryHigh => 4
  }

  /** The lower bound of each level's interval, in fifths. */
  function LevelFloor(l: Level): real {
    Rank(l) as real * 0.2
  }

  /** `get_occupancy_level`: strict comparisons, so each threshold belongs
      to the level above it. */
  function OccupancyLevel(p: real): (l: Level)
    ensures l != VeryLow ==> LevelFloor(l) <= p
    ensures l != VeryHigh ==> p < LevelFloor(l) + 0.2
  {
    if p < 0.2 then VeryLow
    else if p < 0.4 then Low
    else if p < 0.6 then Medium
    else if p < 0.8 then High
    else VeryHigh
  }

  /** Distinct levels have distinct labels. */
  lemma LabelsDistinct(a: Level, b: Level)
    requires a != b
    ensures LevelLabel(a) != LevelLabel(b)
  {
    assert |LevelLabel(VeryLow)| == 12 && |LevelLabel(Low)| == 6 && |LevelLabel(Medium)| == 7;
    assert |LevelLabel(High)| == 7 && |LevelLabel(VeryHigh)| == 13;
    if {a, b} == {Medium, High} {
      assert LevelLabel(Medium)[0] != LevelLabel(High)[0];
    }
  }

  /** A larger probability never yields a lower level. */
  lemma LevelMonotone(p: real, q: real)
    requires p <= q
    ensures Rank(OccupancyLevel(p)) <= Rank(OccupancyLevel(q))
  {
  }

  /** The level is the one whose interval [floor, floor + 0.2) holds the
      probability, the outer levels reaching to infinity. */
  lemma LevelIsInterval(p: real, l: Level)
    requires l == VeryLow || LevelFloor(l) <= p
    requires l == VeryHigh || p < LevelFloor(l) + 0.2
    ensures OccupancyLevel(p) == l
  {
  }

  datatype Band = Night | Morning | Lunch | Day | Evening | LateEvening

  function BandLabel(b: Band): string {
    match b
    case Night => "ночь (минимум загруженности)"
    case Morning => "утро (растущая загруженность)"
    case Lunch => "обеденное время (пик загруженности)"
    case Day => "день (высокая загруженность)"
    case Evening => "вечер (спадающая загруженность)"
    case LateEvening => "поздний вечер (низкая загруженность)"
  }

  /** The first hour of each band. */
  function BandStart(b: Band): int {
    match b
    case Night => 0
    case Morning => 6
    case Lunch => 10
    case Day => 14
    case Evening => 18
    case LateEvening => 22
  }

  /** The hour after each band, on a 24-hour clock. */
  function BandEnd(b: Band): int {
    match b
    case Night => 6
    case Morning => 10
    case Lunch => 14
    case Day => 18
    case Evening => 22
    case LateEvening => 24
  }

  predicate Covers(b: Band, hour: int) {
    BandStart(b) <= hour < BandEnd(b)
  }

  /** `get_time_context`: the band an hour falls in; any hour outside
      [0, 22), including hours no clock shows, falls to the last one. */
  function TimeContext(hour: int): (b: Band)
    ensures 0 <= hour < 24 ==> Covers(b, hour)
    ensures (hour < 0 || hour >= 22) ==> b == LateEvening
  {
    if 0 <= hour < 6 then Night
    else if 6 <= hour < 10 then Morning
    else if 10 <= hour < 14 then Lunch
    else if 14 <= hour < 18 then Day
    else if 18 <= hour < 22 then Evening
    else LateEvening
  }

  /** The bands partition the day: every hour of a clock lies in exactly one. */
  lemma BandsPartitionDay(b: Band, hour: int)
    requires 0 <= hour < 24
    ensures Covers(b, hour) <==> b == TimeContext(hour)
  {
  }

  function Max(a: real, b: real): real {
    if a >= b then a else b
  }

  function Min(a: real, b: real): real {
    if a <= b then a else b
  }

  const Floor: real := 0.05
  const Ceiling: real := 0.95

  /** Free parking close by is at least this full. */
  function FreeNearbyFloor(distance: real): real {
    0.9 - distance * 0.2
  }

  /** Expensive parking is at most this full. */
  function ExpensiveCap(cost: real): real {
    0.3 * (1.0 - cost / 2000.0)
  }

  /** Step 7 and 8 of `estimate_parking_occupancy`: raise free nearby
      parking, cap expensive parking, then clamp into [0.05, 0.95]. */
  function Adjust(raw: real, cost: real, distance: real): (p: real)
    ensures Floor <= p <= Ceiling
    ensures cost > 500.0 ==> p <= Max(Floor, ExpensiveCap(cost))
    ensures cost == 0.0 && 0.0 <= distance <= 1.0 ==> p >= FreeNearbyFloor(distance)
    ensures !(cost == 0.0 && distance <= 1.0) && cost <= 500.0 && Floor <= raw <= Ceiling ==> p == raw
  {
    var freeNearby := if cost == 0.0 && distance <= 1.0 then Max(raw, FreeNearbyFloor(distance)) else raw;
    var capped := if cost > 500.0 then Min(freeNearby, ExpensiveCap(cost)) else freeNearby;
    Max(Floor, Min(Ceiling, capped))
  }

  /** Without corrections a higher combined value never lowers the estimate. */
  lemma AdjustMonotone(raw1: real, raw2: real, cost: real, distance: real)
    requires raw1 <= raw2
    ensures Adjust(raw1, cost, distance) <= Adjust(raw2, cost, distance)
  {
  }

  /** `estimate_parking_occupancy` after the combination: adjusted, clamped
      and rounded to three places. */
  function Estimate(raw: real, cost: real, distance: real): (p: real)
    ensures Floor <= p <= Ceiling
  {
    var q := Adjust(raw, cost, distance);
    RoundToWithin(q, 1000, 50, 950);
    RoundTo(q, 1000)
  }

  /** The percentage shown with the estimate, `round(p * 100, 1)`, stays in [5, 95]. */
  lemma PercentageBounds(raw: real, cost: real, distance: real)
    ensures 5.0 <= RoundTo(Estimate(raw, cost, distance) * 100.0, 10) <= 95.0
  {
    var p := Estimate(raw, cost, distance);
    RoundToWithin(p * 100.0, 10, 50, 950);
  }

  /** Parking at 1400 roubles or more is always estimated as nearly empty. */
  lemma EstimateLevelOfExpensive(raw: real, cost: real, distance: real)
    requires cost >= 1400.0
    ensures OccupancyLevel(Estimate(raw, cost, distance)) == VeryLow
  {
    var q := Adjust(raw, cost, distance);
    assert ExpensiveCap(cost) <= 0.09;
    assert q <= 0.09;
    RoundToWithin(q, 1000, 50, 90);
  }
}

=== FILE: occupancy_api.dfy ===
/** The `/api/parking/occupancy` endpoint of EPO/main.py: reading the
    parameters from the query string or the JSON body, the order of its
    checks, and the answer it builds. The current hour and the weighted
    combination of factors are given to the model. */
module OccupancyApi {
  import opened Prelude
  import opened PyNum
  import opened Json
  import opened Occupancy

  /** A GET request with its query arguments, or a POST request with its
      decoded JSON body. */
  datatype Request = GetRequest(args: map<string, string>) | PostRequest(body: Json)

  /** Steps 1 to 6 of `estimate_parking_occupancy` for (cost, distance,
      spots, hour): the combined probability, or None when `math.exp`
      overflows. */
  type Combine = (real, real, int, int) -> Option<real>

  datatype Answer = Answer(
    probability: real,
    percentage: real,
    cost: real,
    distance: real,
    spots: int,
    hour: int,
    level: Level,
    context: Band)

  datatype Reply =
    | Estimated(answer: Answer)
    | BadRequest(message: string)       // 400
    | ServerError(exc: Exc)             // 500, "Internal server error: " and the exception text

  const HourNotInteger: string := "Hour must be an integer between 0 and 23"
  const HourOutOfRange: string := "Hour must be between 0 and 23"
  const MissingParameters: string := "Missing required parameters: cost, distance, spots"
  const NotPositive: string := "Parameters must be positive values"
  const InvalidTypes: string := "Invalid parameter types. Cost and distance should be numbers, spots should be integer"

  /** `request.args.get(key)`: the text, or None when the argument is absent. */
  function Arg(args: map<string, string>, key: string): (v: Json)
    ensures v.JNull? <==> key !in args
    ensures key in args ==> v == JStr(args[key])
  {
    if key in args then JStr(args[key]) else JNull
  }

  /** The four raw fields (cost, distance, spots, hour); `data.get` on a body
      that is not a dict raises `AttributeError`. */
  function Fields(req: Request): (r: Py<(Json, Json, Json, Json)>)
    ensures r.Raise? <==> req.PostRequest? && !req.body.JObj?
    ensures r.Raise? ==> r.exc == AttributeError
  {
    match req
    case GetRequest(args) => Ok((Arg(args, "cost"), Arg(args, "distance"), Arg(args, "spots"), Arg(args, "hour")))
    case PostRequest(body) =>
      if body.JObj? then Ok((Get(body, "cost"), Get(body, "distance"), Get(body, "spots"), Get(body, "hour")))
      else Raise(AttributeError)
  }

  /** The converted parameters, with the hour field still raw. */
  datatype Params = Params(cost: real, distance: real, spots: int, hourField: Json)

  /** `float(cost)`, `float(distance)`, `int(spots)` in that order; the first
      conversion that raises decides the exception. */
  function Convert(cost: Json, distance: Json, spots: Json, hour: Json): (r: Py<Params>)
    ensures r.Ok? <==> ToFloat(cost).Ok? && ToFloat(distance).Ok? && ToInt(spots).Ok?
    ensures r.Ok? ==> r.value == Params(ToFloat(cost).value, ToFloat(distance).value, ToInt(spots).value, hour)
    ensures ToFloat(cost).Raise? ==> r == Raise(ToFloat(cost).exc)
    ensures ToFloat(cost).Ok? && ToFloat(distance).Raise? ==> r == Raise(ToFloat(distance).exc)
    ensures ToFloat(cost).Ok? && ToFloat(distance).Ok? && ToInt(spots).Raise? ==> r == Raise(ToInt(spots).exc)
  {
    match ToFloat(cost)
    case Raise(e) => Raise(e)
    case Ok(c) =>
      match ToFloat(distance)
      case Raise(e) => Raise(e)
      case Ok(d) =>
        match ToInt(spots)
        case Raise(e) => Raise(e)
        case Ok(s) => Ok(Params(c, d, s, hour))
  }

  function ReadParams(req: Request): (r: Py<Params>) {
    match Fields(req)
    case Raise(e) => Raise(e)
    case Ok(f) => Convert(f.0, f.1, f.2, f.3)
  }

  /** How the hour field resolves: an hour, a 400 message, or an exception
      the inner handler does not catch. */
  datatype HourOutcome = HourOk(hour: int) | HourRejected(message: string) | HourRaised(exc: Exc)

  /** A present hour goes through `int()` (a `ValueError` becomes the first
      400, an out-of-range value the second); an absent one is the current hour. */
  function ResolveHour(field: Json, nowHour: int): (r: HourOutcome)
    requires 0 <= nowHour <= 23
    ensures r.HourOk? ==> 0 <= r.hour <= 23
    ensures field.JNull? ==> r == HourOk(nowHour)
    ensures r == HourRejected(HourNotInteger) <==> ToInt(field).Raise? && ToInt(field).exc == ValueError
    ensures r == HourRejected(HourOutOfRange) <==> ToInt(field).Ok? && !field.JNull? && !(0 <= ToInt(field).value <= 23)
    ensures r.HourRaised? <==> ToInt(field).Raise? && ToInt(field).exc != ValueError && !field.JNull?
    ensures r.HourRaised? ==> r.exc == TypeError
  {
    if field.JNull? then HourOk(nowHour)
    else match ToInt(field)
      case Raise(e) => if e == ValueError then HourRejected(HourNotInteger) else HourRaised(e)
      case Ok(h) => if h < 0 || h > 23 then HourRejected(HourOutOfRange) else HourOk(h)
  }

  /** The outer handler: a `ValueError` is a 400, anything else a 500. */
  function Caught(e: Exc): (r: Reply)
    ensures r.BadRequest? <==> e == ValueError
  {
    if e == ValueError then BadRequest(InvalidTypes) else ServerError(e)
  }

  /** The parameters as read and the hour as resolved, when both succeed. */
  function CheckedParams(req: Request, nowHour: int): (c: Option<(Params, int)>)
    requires 0 <= nowHour <= 23
    ensures c.Some? <==> ReadParams(req).Ok? && ResolveHour(ReadParams(req).value.hourField, nowHour).HourOk?
    ensures c.Some? ==>
      && c.value.0 == ReadParams(req).value
      && ResolveHour(ReadParams(req).value.hourField, nowHour) == HourOk(c.value.1)
      && 0 <= c.value.1 <= 23
  {
    match ReadParams(req)
    case Raise(_) => None
    case Ok(p) =>
      match ResolveHour(p.hourField, nowHour)
      case HourOk(h) => Some((p, h))
      case _ => None
  }

  /** `parking_occupancy`. */
  function HandleOccupancy(req: Request, nowHour: int, combine: Combine): (r: Reply)
    requires 0 <= nowHour <= 23
    ensures r.Estimated? ==>
      && 0 <= r.answer.hour <= 23
      && r.answer.cost >= 0.0 && r.answer.distance >= 0.0 && r.answer.spots >= 1
      && Floor <= r.answer.probability <= Ceiling
      && r.answer.level == OccupancyLevel(r.answer.probability)
      && Covers(r.answer.context, r.answer.hour)
    ensures r.Estimated? ==>
      CheckedParams(req, nowHour).Some? && r == Respond(CheckedParams(req, nowHour).value.0, CheckedParams(req, nowHour).value.1, combine)
    ensures r == ServerError(OverflowError) <==>
      CheckedParams(req, nowHour).Some?
      && Respond(CheckedParams(req, nowHour).value.0, CheckedParams(req, nowHour).value.1, combine) == ServerError(OverflowError)
    ensures r != BadRequest(MissingParameters)
    ensures ReadParams(req).Raise? ==> r == Caught(ReadParams(req).exc)
  {
    match ReadParams(req)
    case Raise(e) => Caught(e)
    case Ok(p) =>
      match ResolveHour(p.hourField, nowHour)
      case HourRejected(m) => BadRequest(m)
      case HourRaised(e) => Caught(e)
      case HourOk(hour) => Respond(p, hour, combine)
  }

  /** The parameters pass the sign check: no negative cost or distance, at
      least one spot. */
  predicate Positive(p: Params) {
    p.cost >= 0.0 && p.distance >= 0.0 && p.spots > 0
  }

  /** The handler once the parameters are read and the hour is valid: the
      sign check, then the estimate built from the combined factors. */
  function Respond(p: Params, hour: int, combine: Combine): (r: Reply)
    requires 0 <= hour <= 23
    ensures r == BadRequest(NotPositive) <==> !Positive(p)
    ensures r == ServerError(OverflowError) <==> Positive(p) && combine(p.cost, p.distance, p.spots, hour).None?
    ensures r.Estimated? <==> Positive(p) && combine(p.cost, p.distance, p.spots, hour).Some?
    ensures r.Estimated? ==>
      && r.answer.cost == p.cost && r.answer.distance == p.distance && r.answer.spots == p.spots
      && r.answer.hour == hour
      && r.answer.probability == Estimate(combine(p.cost, p.distance, p.spots, hour).value, p.cost, p.distance)
      && r.answer.percentage == RoundTo(r.answer.probability * 100.0, 10)
      && Floor <= r.answer.probability <= Ceiling
      && r.answer.level == OccupancyLevel(r.answer.probability)
      && Covers(r.answer.context, hour)
  {
    if !Positive(p) then BadRequest(NotPositive)
    else match combine(p.cost, p.distance, p.spots, hour)
      case None => ServerError(OverflowError)
      case Some(raw) =>
        var prob := Estimate(raw, p.cost, p.distance);
        Estimated(Answer(prob, RoundTo(prob * 100.0, 10), p.cost, p.distance, p.spots, hour,
                         OccupancyLevel(prob), TimeContext(hour)))
  }

  /** Some of cost, distance and spots is absent (or null). */
  predicate SomeMissing(f: (Json, Json, Json, Json)) {
    f.0.JNull? || f.1.JNull? || f.2.JNull?
  }

  /** The endpoint with the presence check moved before the conversions, so
      that its 400 can be reached; everything else is unchanged. */
  function HandleOccupancyChecked(req: Request, nowHour: int, combine: Combine): (r: Reply)
    requires 0 <= nowHour <= 23
    ensures r == BadRequest(MissingParameters) <==> Fields(req).Ok? && SomeMissing(Fields(req).value)
    ensures !(Fields(req).Ok? && SomeMissing(Fields(req).value)) ==> r == HandleOccupancy(req, nowHour, combine)
  {
    match Fields(req)
    case Ok(f) => if SomeMissing(f) then BadRequest(MissingParameters) else HandleOccupancy(req, nowHour, combine)
    case Raise(_) => HandleOccupancy(req, nowHour, combine)
  }

  /** With the check in front, a request without a cost gets the
      missing-parameters message. */
  lemma MissingCostIsReported(args: map<string, string>, nowHour: int, combine: Combine)
    requires 0 <= nowHour <= 23
    requires "cost" !in args
    ensures HandleOccupancyChecked(GetRequest(args), nowHour, combine) == BadRequest(MissingParameters)
  {
  }

  /** A GET request without a cost makes `float(None)` raise `TypeError`,
      which the generic handler turns into a 500: the missing-parameters
      message is never reached. */
  lemma MissingCostIsServerError(args: map<string, string>, nowHour: int, combine: Combine)
    requires 0 <= nowHour <= 23
    requires "cost" !in args
    ensures HandleOccupancy(GetRequest(args), nowHour, combine) == ServerError(TypeError)
  {
  }

  /** A cost that `float()` cannot read is reported as a 400. */
  lemma TextCostIsBadRequest(args: map<string, string>, nowHour: int, combine: Combine)
    requires 0 <= nowHour <= 23
    requires "cost" in args && ParseFloat(args["cost"]).None?
    ensures HandleOccupancy(GetRequest(args), nowHour, combine) == BadRequest(InvalidTypes)
  {
  }

  /** The hour is checked before the signs: with readable parameters, a bad
      hour is reported even when the other values are negative. */
  lemma HourCheckedBeforeSigns(req: Request, nowHour: int, combine: Combine)
    requires 0 <= nowHour <= 23
    requires ReadParams(req).Ok?
    requires ResolveHour(ReadParams(req).value.hourField, nowHour).HourRejected?
    ensures HandleOccupancy(req, nowHour, combine) == BadRequest(ResolveHour(ReadParams(req).value.hourField, nowHour).message)
  {
  }

  /** With readable parameters and a valid hour, the sign check decides
      between the 400 and an estimate. */
  lemma SignsDecide(req: Request, nowHour: int, combine: Combine)
    requires 0 <= nowHour <= 23
    requires ReadParams(req).Ok? && ResolveHour(ReadParams(req).value.hourField, nowHour).HourOk?
    ensures var p := ReadParams(req).value;
      HandleOccupancy(req, nowHour, combine) == BadRequest(NotPositive)
      <==> p.cost < 0.0 || p.distance < 0.0 || p.spots <= 0
  {
    var p := ReadParams(req).value;
    var hour := ResolveHour(p.hourField, nowHour).hour;
    var r := HandleOccupancy(req, nowHour, combine);
    if !(p.cost < 0.0 || p.distance < 0.0 || p.spots <= 0) {
      assert r.ServerError? || r.Estimated? by {
        if combine(p.cost, p.distance, p.spots, hour).None? {
          assert r == ServerError(OverflowError);
        }
      }
    }
  }

  /** A POST body that is not an object fails at `data.get` with a 500. */
  lemma NonObjectBodyIsServerError(body: Json, nowHour: int, combine: Combine)
    requires 0 <= nowHour <= 23
    requires !body.JObj?
    ensures HandleOccupancy(PostRequest(body), nowHour, combine) == ServerError(AttributeError)
  {
  }

  /** A list given as the hour of a POST body is a `TypeError` the inner
      handler lets through, so the answer is a 500 rather than the hour's 400. */
  lemma ListHourIsServerError(cost: int, distance: int, spots: int, nowHour: int, combine: Combine)
    requires 0 <= nowHour <= 23
    ensures HandleOccupancy(PostRequest(JObj([("cost", JInt(cost)), ("distance", JInt(distance)),
                                              ("spots", JInt(spots)), ("hour", JArr([]))])), nowHour, combine)
            == ServerError(TypeError)
  {
    ListHourRead(cost, distance, spots);
  }

  lemma ListHourRead(cost: int, distance: int, spots: int)
    ensures ReadParams(PostRequest(JObj([("cost", JInt(cost)), ("distance", JInt(distance)),
                                         ("spots", JInt(spots)), ("hour", JArr([]))])))
            == Ok(Params(cost as real, distance as real, spots, JArr([])))
  {
    GetFour("cost", JInt(cost), "distance", JInt(distance), "spots", JInt(spots), "hour", JArr([]));
  }

  lemma GetFour(k1: string, x1: Json, k2: string, x2: Json, k3: string, x3: Json, k4: string, x4: Json)
    requires k1 != k2 && k1 != k3 && k1 != k4 && k2 != k3 && k2 != k4 && k3 != k4
    ensures var d := JObj([(k1, x1), (k2, x2), (k3, x3), (k4, x4)]);
      Get(d, k1) == x1 && Get(d, k2) == x2 && Get(d, k3) == x3 && Get(d, k4) == x4
  {
    var fs := [(k1, x1), (k2, x2), (k3, x3), (k4, x4)];
    assert fs == [(k1, x1)] + [(k2, x2), (k3, x3), (k4, x4)];
    GetCons(k1, x1, [(k2, x2), (k3, x3), (k4, x4)], k1);
    GetCons(k1, x1, [(k2, x2), (k3, x3), (k4, x4)], k2);
    GetCons(k1, x1, [(k2, x2), (k3, x3), (k4, x4)], k3);
    GetCons(k1, x1, [(k2, x2), (k3, x3), (k4, x4)], k4);
    GetThree(k2, x2, k3, x3, k4, x4, k2);
    GetThree(k2, x2, k3, x3, k4, x4, k3);
    GetThree(k2, x2, k3, x3, k4, x4, k4);
  }
}

=== FILE: prelude.dfy ===
/** Small shared datatypes: optional values and the outcome of a Python
    computation that may raise one of the built-in exceptions the services
    rely on. */
module Prelude {

  datatype Option<+T> = None | Some(value: T) {
    function GetOr(default: T): T {
      match this
      case Some(v) => v
      case None => default
    }
  }

  /** The Python exceptions whose propagation changes what a caller sees. */
  datatype Exc = TypeError | ValueError | AttributeError | OverflowError

  /** The result of evaluating a Python expression: a value, or an exception. */
  datatype Py<+T> = Ok(value: T) | Raise(exc: Exc)

  /** The index of the first true flag, or the length when there is none:
      the position where a Python `for` loop that returns on a condition stops. */
  function FirstTrue(flags: seq<bool>): (k: nat)
    ensures k <= |flags|
    ensures k < |flags| ==> flags[k]
    ensures forall j :: 0 <= j < k ==> !flags[j]
  {
    if flags == [] || flags[0] then 0
    else
      var k := FirstTrue(flags[1..]);
      assert forall j :: 1 <= j < 1 + k ==> flags[j] == flags[1..][j - 1];
      1 + k
  }

  /** A true flag with only false flags before it is the first one. */
  lemma FirstTrueIs(flags: seq<bool>, k: nat)
    requires k < |flags| && flags[k]
    requires forall j :: 0 <= j < k ==> !flags[j]
    ensures FirstTrue(flags) == k
  {
  }
}

=== FILE: tariff.dfy ===
/** The hourly tariff estimated from the distance to the city centre, used
    when automatic pricing is switched on (parser/main.py). */
module Tariff {

  /** (upper distance in km, roubles per hour), nearest zone first. */
  const Brackets: seq<(real, int)> := [(0.30, 800), (1.00, 400), (3.00, 250), (8.00, 150), (20.0, 100)]

  /** The rate beyond the last bracket. */
  const FallbackPrice: int := 70

  /** The price of the first bracket whose threshold is at least `d`, or the
      fallback when there is none: the loop of `_estimate_price_by_distance`. */
  function PriceIn(bs: seq<(real, int)>, d: real): int {
    if bs == [] then FallbackPrice
    else if d <= bs[0].0 then bs[0].1
    else PriceIn(bs[1..], d)
  }

  function EstimatePriceByDistance(d: real): (p: int)
    ensures p in {800, 400, 250, 150, 100, 70}
    ensures d > 20.0 ==> p == FallbackPrice
    ensures d <= 0.30 ==> p == 800
  {
    BracketsAreZones(d);
    PriceIn(Brackets, d)
  }

  /** Thresholds strictly increase and prices strictly decrease, all above the fallback. */
  predicate WellOrdered(bs: seq<(real, int)>) {
    && (forall i, j :: 0 <= i < j < |bs| ==> bs[i].0 < bs[j].0 && bs[i].1 > bs[j].1)
    && (forall i :: 0 <= i < |bs| ==> bs[i].1 >= FallbackPrice)
  }

  /** The result is the price of the first bracket that covers `d`. */
  lemma {:induction false} PriceInIsFirstCover(bs: seq<(real, int)>, d: real, i: nat)
    requires i < |bs| && d <= bs[i].0
    requires forall j :: 0 <= j < i ==> d > bs[j].0
    ensures PriceIn(bs, d) == bs[i].1
  {
    if i > 0 {
      PriceInIsFirstCover(bs[1..], d, i - 1);
    }
  }

  /** Beyond every threshold the fallback applies. */
  lemma {:induction false} PriceInBeyondAll(bs: seq<(real, int)>, d: real)
    requires forall j :: 0 <= j < |bs| ==> d > bs[j].0
    ensures PriceIn(bs, d) == FallbackPrice
  {
    if bs != [] {
      PriceInBeyondAll(bs[1..], d);
    }
  }

  /** Over a well-ordered table the price never grows with distance. */
  lemma {:induction false} PriceInMonotone(bs: seq<(real, int)>, d1: real, d2: real)
    requires WellOrdered(bs)
    requires d1 <= d2
    ensures PriceIn(bs, d2) <= PriceIn(bs, d1)
  {
    if bs != [] {
      assert WellOrdered(bs[1..]);
      if d1 <= bs[0].0 {
        PriceInBounded(bs, d2);
      } else {
        PriceInMonotone(bs[1..], d1, d2);
      }
    }
  }

  /** Over a well-ordered table no price exceeds the first bracket's. */
  lemma {:induction false} PriceInBounded(bs: seq<(real, int)>, d: real)
    requires WellOrdered(bs) && bs != []
    ensures PriceIn(bs, d) <= bs[0].1
  {
    if d > bs[0].0 {
      if |bs| > 1 {
        assert WellOrdered(bs[1..]);
        PriceInBounded(bs[1..], d);
      }
    }
  }

  /** A farther parking is never dearer. */
  lemma EstimateMonotone(d1: real, d2: real)
    requires d1 <= d2
    ensures EstimatePriceByDistance(d2) <= EstimatePriceByDistance(d1)
  {
    PriceInMonotone(Brackets, d1, d2);
  }

  /** The zones written out one by one, independently of the table walk. */
  function ZonePrice(d: real): int {
    if d <= 0.30 then 800        // historic centre
    else if d <= 1.00 then 400   // adjacent quarters
    else if d <= 3.00 then 250   // between the Garden Ring and the Third Ring
    else if d <= 8.00 then 150   // inside the MKAD
    else if d <= 20.0 then 100   // residential districts
    else 70                      // beyond the MKAD
  }

  /** Walking the bracket table gives exactly the zone rates. */
  lemma BracketsAreZones(d: real)
    ensures PriceIn(Brackets, d) == ZonePrice(d)
  {
    if d <= 0.30 { PriceInIsFirstCover(Brackets, d, 0); }
    else if d <= 1.00 { PriceInIsFirstCover(Brackets, d, 1); }
    else if d <= 3.00 { PriceInIsFirstCover(Brackets, d, 2); }
    else if d <= 8.00 { PriceInIsFirstCover(Brackets, d, 3); }
    else if d <= 20.0 { PriceInIsFirstCover(Brackets, d, 4); }
    else { PriceInBeyondAll(Brackets, d); }
  }

  lemma EstimateMatchesZones(d: real)
    ensures EstimatePriceByDistance(d) == ZonePrice(d)
  {
    BracketsAreZones(d);
  }
}

=== FILE: text.dfy ===
/** The handful of Python `str` methods the services use: `strip`, `lower`,
    `split(",")`, `join` and the substring test `in`. */
module PyText {

  /** Python's `str.isspace()` for one character: the ASCII whitespace and
      separator controls, NEL, and the Unicode space separators. */
  predicate IsSpace(c: char) {
    || c == ' '
    || ('\t' <= c <= '\r')
    || ('\U{1C}' <= c <= '\U{1F}')
    || c == '\U{85}' || c == '\U{A0}' || c == '\U{1680}'
    || ('\U{2000}' <= c <= '\U{200A}')
    || c == '\U{2028}' || c == '\U{2029}' || c == '\U{202F}' || c == '\U{205F}' || c == '\U{3000}'
  }

  /** Every character is whitespace (so `s.strip()` is empty and `s` is falsy after stripping). */
  predicate Blank(s: string) {
    forall i :: 0 <= i < |s| ==> IsSpace(s[i])
  }

  /** Neither end is whitespace: `s.strip() == s`. */
  predicate IsStripped(s: string) {
    s == [] || (!IsSpace(s[0]) && !IsSpace(s[|s| - 1]))
  }

  function TrimStart(s: string): (r: string)
    ensures |r| <= |s| && r == s[|s| - |r|..]
    ensures r == [] || !IsSpace(r[0])
    ensures Blank(s[..|s| - |r|])
  {
    if |s| > 0 && IsSpace(s[0]) then
      var r := TrimStart(s[1..]);
      assert Blank(s[..|s| - |r|]) by {
        forall k | 0 <= k < |s| - |r| ensures IsSpace(s[k]) {
          if k > 0 { assert s[k] == s[1..][..|s| - 1 - |r|][k - 1]; }
        }
      }
      r
    else s
  }

  function TrimEnd(s: string): (r: string)
    ensures |r| <= |s| && r == s[..|r|]
    ensures r == [] || !IsSpace(r[|r| - 1])
    ensures Blank(s[|r|..])
  {
    if |s| > 0 && IsSpace(s[|s| - 1]) then
      var r := TrimEnd(s[..|s| - 1]);
      assert s[|r|..] == s[..|s| - 1][|r|..] + [s[|s| - 1]];
      r
    else s
  }

  /** Python's `s.strip()` with no argument. */
  function Strip(s: string): (r: string)
    ensures IsStripped(r)
    ensures r == [] <==> Blank(s)
    ensures |r| <= |s|
  {
    var e := TrimEnd(s);
    var r := TrimStart(e);
    assert r == [] ==> Blank(s) by {
      if r == [] {
        assert Blank(e) by { assert e[..|e| - |r|] == e; }
        assert s == e + s[|e|..];
      }
    }
    assert r != [] ==> !IsSpace(r[|r| - 1]) by {
      if r != [] { assert r[|r| - 1] == e[|e| - 1]; }
    }
    r
  }

  lemma {:induction false} TrimStartBlankPrefix(a: string, m: string)
    requires Blank(a)
    requires m == [] || !IsSpace(m[0])
    ensures TrimStart(a + m) == m
    decreases |a|
  {
    if a != [] {
      assert (a + m)[1..] == a[1..] + m;
      TrimStartBlankPrefix(a[1..], m);
    } else {
      assert a + m == m;
    }
  }

  lemma {:induction false} TrimEndBlankSuffix(m: string, b: string)
    requires Blank(b)
    requires m == [] || !IsSpace(m[|m| - 1])
    ensures TrimEnd(m + b) == m
    decreases |b|
  {
    if b != [] {
      assert (m + b)[..|m + b| - 1] == m + b[..|b| - 1];
      TrimEndBlankSuffix(m, b[..|b| - 1]);
    } else {
      assert m + b == m;
    }
  }

  /** `strip` removes exactly the surrounding whitespace: whatever blank
      padding surrounds a stripped core, stripping gives the core back. */
  lemma StripPadding(a: string, m: string, b: string)
    requires Blank(a) && Blank(b) && IsStripped(m)
    ensures Strip(a + m + b) == m
  {
    if m == [] {
      assert a + m + b == a + b;
      assert Blank(a + b);
    } else {
      TrimEndBlankSuffix(a + m, b);
      TrimStartBlankPrefix(a, m);
    }
  }

  /** Every string is its stripped core between two blank paddings. */
  lemma StripDecompose(s: string) returns (a: string, b: string)
    ensures Blank(a) && Blank(b) && s == a + Strip(s) + b
  {
    var e := TrimEnd(s);
    var r := TrimStart(e);
    a := e[..|e| - |r|];
    b := s[|e|..];
    SplitAt(s, |e|);
    SplitAt(e, |e| - |r|);
  }

  lemma SplitAt(s: string, k: nat)
    requires k <= |s|
    ensures s == s[..k] + s[k..]
  {
  }

  /** Leading and trailing blank text added to a string does not change its strip. */
  lemma StripAbsorbsPadding(a: string, s: string, b: string)
    requires Blank(a) && Blank(b)
    ensures Strip(a + s + b) == Strip(s)
  {
    var a', b' := StripDecompose(s);
    var m := Strip(s);
    BlankConcat(a, a');
    BlankConcat(b', b);
    Regroup(a, a', m, b', b);
    StripPadding(a + a', m, b' + b);
  }

  lemma BlankConcat(x: string, y: string)
    requires Blank(x) && Blank(y)
    ensures Blank(x + y)
  {
  }

  lemma Regroup(a: string, a': string, m: string, b': string, b: string)
    ensures a + (a' + m + b') + b == (a + a') + m + (b' + b)
  {
  }

  /** Stripping twice is stripping once. */
  lemma StripIdempotent(s: string)
    ensures Strip(Strip(s)) == Strip(s)
  {
    StripPadding([], Strip(s), []);
    assert [] + Strip(s) + [] == Strip(s);
  }

  /** Python's `str.lower()` on one character, for ASCII and the basic
      Cyrillic block (including Ё and the other U+0400..U+040F capitals). */
  function LowerChar(c: char): (d: char)
    ensures IsSpace(d) <==> IsSpace(c)
    ensures ('A' <= c <= 'Z') ==> d as int == c as int + 32
  {
    if 'A' <= c <= 'Z' || '\U{0410}' <= c <= '\U{042F}' then (c as int + 32) as char
    else if '\U{0400}' <= c <= '\U{040F}' then (c as int + 80) as char
    else c
  }

  function Lower(s: string): (r: string)
    ensures |r| == |s|
    ensures forall i :: 0 <= i < |s| ==> r[i] == LowerChar(s[i])
  {
    seq(|s|, i requires 0 <= i < |s| => LowerChar(s[i]))
  }

  predicate IsLower(s: string) {
    forall i :: 0 <= i < |s| ==> LowerChar(s[i]) == s[i]
  }

  /** Lower-casing is idempotent: its result is already lower case. */
  lemma LowerIsLower(s: string)
    ensures IsLower(Lower(s))
    ensures Lower(Lower(s)) == Lower(s)
  {
  }

  /** Text already in lower case is left as it is. */
  lemma LowerFixed(s: string)
    requires IsLower(s)
    ensures Lower(s) == s
  {
  }

  /** Lower-casing commutes with stripping, because it maps whitespace to
      whitespace and nothing else to whitespace. */
  lemma LowerStripped(s: string)
    requires IsStripped(s)
    ensures IsStripped(Lower(s))
  {
  }

  /** Python's `s.split(sep)` for a one-character separator: always at least
      one part, and no part contains the separator. */
  function Split(s: string, sep: char): (parts: seq<string>)
    ensures |parts| >= 1
    ensures forall k :: 0 <= k < |parts| ==> sep !in parts[k]
    ensures |parts| == 1 <==> sep !in s
    decreases |s|
  {
    if sep !in s then [s]
    else
      var i := IndexOf(s, sep);
      [s[..i]] + Split(s[i + 1..], sep)
  }

  function IndexOf(s: string, c: char): (i: nat)
    requires c in s
    ensures i < |s| && s[i] == c && c !in s[..i]
  {
    if s[0] == c then 0 else 1 + IndexOf(s[1..], c)
  }

  /** Python's `sep.join(parts)`. */
  function Join(parts: seq<string>, sep: string): string {
    if |parts| == 0 then ""
    else if |parts| == 1 then parts[0]
    else parts[0] + sep + Join(parts[1..], sep)
  }

  /** Splitting and joining back with the same separator is the identity. */
  lemma {:induction false} JoinSplit(s: string, sep: char)
    ensures Join(Split(s, sep), [sep]) == s
    decreases |s|
  {
    if sep in s {
      var i := IndexOf(s, sep);
      var head, tail := s[..i], s[i + 1..];
      SplitUnfold(s, sep);
      JoinSplit(tail, sep);
      JoinCons(head, Split(tail, sep), [sep]);
      Rejoin(s, i);
    }
  }

  lemma SplitUnfold(s: string, sep: char)
    requires sep in s
    ensures Split(s, sep) == [s[..IndexOf(s, sep)]] + Split(s[IndexOf(s, sep) + 1..], sep)
  {
  }

  lemma Rejoin(s: string, i: nat)
    requires i < |s|
    ensures s == s[..i] + [s[i]] + s[i + 1..]
  {
  }

  lemma JoinCons(p: string, rest: seq<string>, sep: string)
    requires rest != []
    ensures Join([p] + rest, sep) == p + sep + Join(rest, sep)
  {
    assert ([p] + rest)[1..] == rest;
  }

  /** Joining a non-empty list whose first part is non-empty gives a non-empty string. */
  lemma JoinNonEmpty(parts: seq<string>, sep: string)
    requires |parts| > 0 && parts[0] != []
    ensures Join(parts, sep) != []
  {
  }

  /** `needle` occurs in `hay` starting at index `i`. */
  predicate OccursAt(hay: string, needle: string, i: int) {
    0 <= i && i + |needle| <= |hay| && hay[i..i + |needle|] == needle
  }

  /** Python's `needle in hay` for strings. */
  function Contains(hay: string, needle: string): (b: bool)
    ensures b <==> exists i :: OccursAt(hay, needle, i)
    decreases |hay|
  {
    if |needle| <= |hay| && hay[..|needle|] == needle then
      assert OccursAt(hay, needle, 0);
      true
    else if |hay| == 0 then
      assert forall i :: !OccursAt(hay, needle, i);
      false
    else
      var b := Contains(hay[1..], needle);
      assert b ==> exists i :: OccursAt(hay, needle, i) by {
        if b {
          var j :| OccursAt(hay[1..], needle, j);
          assert hay[1..][j..j + |needle|] == hay[j + 1..j + 1 + |needle|];
          assert OccursAt(hay, needle, j + 1);
        }
      }
      assert (exists i :: OccursAt(hay, needle, i)) ==> b by {
        if exists i :: OccursAt(hay, needle, i) {
          var i :| OccursAt(hay, needle, i);
          assert i != 0;
          assert hay[1..][i - 1..i - 1 + |needle|] == hay[i..i + |needle|];
          assert OccursAt(hay[1..], needle, i - 1);
        }
      }
      b
  }
}
